=== FILE: README.md ===
# Study tracker core in Dafny

This project models the state logic of a single-page study tracker (`src/App.tsx`). The tracker keeps a log of study sessions. It records sessions from a stopwatch, from a pomodoro timer or by hand, and groups them into projects. From the log it derives:

- weekly bars;
- the current streak and the best streak;
- the average and median session length;
- a level ladder from Bronze III to Diamond I.

It also keeps a list of daily habits, each with its own streak.

The model uses these conventions:

- **Time.** Instants are integer milliseconds. Calendar days are integer day numbers (`Days.DayOf`). Day 0 is a Thursday. The `yyyy-MM-dd` keys of the app correspond to day numbers one to one and in order, so maps keyed by day key become maps keyed by day number.
- **Clocks and ids.** Every transition that reads the clock takes the current instant as a parameter. Every record that gets a random UUID takes the id as a parameter.
- **Timers.** The stopwatch and the pomodoro are pure state machines. An event whose button is not on screen in the current mode changes nothing. An interval callback is a `Tick(now)` event.
- **Rounding.** JavaScript's `Math.round(p / q)` on integers is `Util.RoundDiv`. Its contract pins the result to the half-open interval around `p / q`. JavaScript's `%` is `Util.JsRem`.

Modules:

| module | models |
|---|---|
| `Util` | `fmtHm`, `clamp`, `String.prototype.trim`, rounding |
| `Seqs` | filter, count, insertion sort and first-seen de-duplication over sequences |
| `Days` | day numbers, Monday-first weeks, and the backward day walk shared by both streak loops |
| `Sessions` | the session record, the three ways of saving a session, editing and deleting |
| `Projects` | adding and deleting projects, and the active project |
| `Aggregates` | the project filter, `computeWeekBars`, `computeStreakDays`, `computeStreakDaysAllTime`, and the average and median |
| `Level` | the `LevelCard` ladder and its progress |
| `Habits` | habits, the week's day keys, toggling, renaming, deleting, and the habit streak |
| `Stopwatch` | the stopwatch component |
| `Pomodoro` | the pomodoro component |

## Model

| member | source | states |
|---|---|---|
| Util.RoundDiv | src/App.tsx:491 | `Math.round(p / q)`: the result is the integer whose half-open window `[r - 1/2, r + 1/2)` contains `p / q` |
| Util.RoundDivUnique | src/App.tsx:491 | that window property fixes the rounded value uniquely |
| Util.RoundDivMonotone | src/App.tsx:2072 | rounding never reverses the order of two quotients with the same divisor |
| Util.JsRem | src/App.tsx:159 | JavaScript `%`: the remainder takes the sign of the dividend and is smaller in magnitude than the divisor |
| Util.Clamp | src/App.tsx:167 | `clamp` lies in `[min, max]`, equals `n` inside the range and the nearer bound outside it |
| Util.FmtHm | src/App.tsx:157-163 | the label always reads back as the given non-negative number of minutes; below an hour it is minutes only; a mixed label has minutes in 1..59 |
| Util.Trim | src/App.tsx:1331 | the result is the input without its leading and trailing white space, and it neither starts nor ends with white space |
| Util.TrimIdempotent | src/App.tsx:1765 | trimming a trimmed name changes nothing, so the habit card's trim followed by any later trim gives the same name |
| Seqs.Filter | src/App.tsx:546 | `Array.prototype.filter`: every element of the result is a kept element of the input, every kept element appears, and the input comes back unchanged when everything is kept |
| Seqs.FilterAppend | src/App.tsx:546 | filtering a concatenation is the concatenation of the filtered parts, and a single element is kept or dropped on its own, which fixes the order of the result |
| Seqs.FilterMultiplicity | src/App.tsx:546 | a kept value occurs in the result exactly as often as in the input, and a dropped value not at all |
| Seqs.FilterFirst | src/App.tsx:448 | the first element of the result is the first kept element of the input |
| Seqs.FilterSubMultiset | src/App.tsx:546 | filtering only removes elements, never duplicates one |
| Seqs.Sort | src/App.tsx:494 | the numeric sort returns a sorted permutation of its input |
| Seqs.CountSort | src/App.tsx:494 | sorting keeps how many elements satisfy any predicate |
| Seqs.Distinct | src/App.tsx:2425-2430 | the first-seen scan keeps every value exactly once and nothing else |
| Seqs.SortStrict | src/App.tsx:2431 | sorting pairwise distinct keys gives a strictly increasing sequence |
| Days.DayOf | src/App.tsx:166 | `startOfDay`: the instant lies within the day the result names |
| Days.StartOfWeek | src/App.tsx:2385 | `startOfWeek` with weeks starting on Monday: a Monday at most six days before the given day |
| Days.WeekDayInOrder | src/App.tsx:2396-2397 | day `i` of a week is the `i`-th weekday with Monday first, which is the bar's label |
| Days.WeekIndexNext | src/App.tsx:2388 | stepping one day advances the weekday, and Sunday wraps to Monday |
| Days.BackRun | src/App.tsx:2411-2420 | the backward walk stops at the first day that fails the test, and every day it passed satisfies the test |
| Days.RunBackUnique | src/App.tsx:2411-2420 | a run ending at a given day has exactly one length |
| Days.BackRunMonotone | src/App.tsx:2413-2419 | making more days pass the test never shortens the walk |
| Days.BackRunLocal | src/App.tsx:2413-2419 | the walk depends only on the days it visits |
| Sessions.DayTotalPositiveIff | src/App.tsx:2406-2410 | for sessions of positive length, a day's total is positive exactly when some session starts that day, and it is never negative |
| Sessions.DayTotalAppend | src/App.tsx:2390-2394 | a day's total over two logs is the sum of the two totals |
| Sessions.TotalMinutesAppend | src/App.tsx:477 | the all-time total of two logs is the sum of the two totals |
| Sessions.DayTotalOutsideDaySet | src/App.tsx:2409 | a day with no session has total zero |
| Sessions.Prepend | src/App.tsx:517 | the new record goes first and the old log follows unchanged; the total, the record's day total and the day set grow by that record only; ids stay unique for a fresh id |
| Sessions.SaveFromStopwatch | src/App.tsx:505-518 | the stopwatch record stores `mins`, raised to one minute when less; it stores the pause minutes, raised to zero when negative; its span ends now and is `mins` minutes long; the total grows by the stored minutes; ids stay unique for a fresh id |
| Sessions.SaveFromPomodoro | src/App.tsx:519-531 | the pomodoro record stores the minutes unchanged and has no pause; its note is the caption, or "Pomodoro" when the caption is empty; the total grows by those minutes |
| Sessions.AddManual | src/App.tsx:532-544 | the manual record is flagged manual and stores `mins`, raised to one minute when less; the total grows by its minutes |
| Sessions.UpdateSession | src/App.tsx:545 | the session with the given id receives the patch, and every other session is unchanged and in place |
| Sessions.NoteEditKeepsTotals | src/App.tsx:545 | editing a note keeps every day total, the all-time total and a valid log |
| Sessions.DeleteSession | src/App.tsx:546 | no session with the id remains; every other session stays, as often as it occurred; nothing new appears; deleting a missing id changes nothing |
| Sessions.DeleteSessionKeepsOrder | src/App.tsx:546 | deletion works part by part on a concatenated log, so the remaining sessions keep their order |
| Sessions.DeleteUndoesPrepend | src/App.tsx:546 | deleting a just-saved record by its fresh id restores the log exactly |
| Projects.AddProject | src/App.tsx:1330-1338 | a blank name changes nothing; otherwise the trimmed name becomes active and is appended if new, with no duplicate created and the log untouched |
| Projects.RemainingProjects | src/App.tsx:446 | the other projects in their order and multiplicity; the first of them is the first entry that differs from the deleted name, and none is left when every entry is that name |
| Projects.FallbackActive | src/App.tsx:447-449 | the project that replaces a deleted active one is the first entry differing from it, or "Psychologie" when there is none or that entry is empty; it is never the deleted name |
| Projects.DeleteProject | src/App.tsx:443-457 | an empty name changes nothing; otherwise the project is gone and all others remain in order and multiplicity; a deleted active project falls back to the first list entry that differs from it, or to "Psychologie" when there is none or it is empty; the project's sessions go only when asked, the rest staying in order |
| Projects.DeleteActiveFallsBackToNext | src/App.tsx:446-449 | deleting the active first project of A, B, C leaves B, C with B active |
| Projects.DeleteProjectKeepsActiveValid | src/App.tsx:443-457 | after deleting, the active project is still a listed project or the default |
| Projects.DeleteUndoesAdd | src/App.tsx:443-457 | deleting a just-added project restores the project list and the log |
| Aggregates.Filtered | src/App.tsx:466-471 | "all projects" is the whole log; any other filter keeps exactly the sessions of that project, each as often as it occurs in the log |
| Aggregates.FilteredKeepsOrder | src/App.tsx:468-471 | the filter works part by part on a concatenated log, so the selected sessions keep their log order; a saved session enters the filtered log exactly when the filter selects it |
| Aggregates.FilteredTotalsSplit | src/App.tsx:477-485 | a project's filtered total plus the total of every other session is the all-time total |
| Aggregates.BarHeight | src/App.tsx:2399 | a bar's height is minutes over 360, clamped to `[0, 1]` |
| Aggregates.WeekBars | src/App.tsx:2384-2401 | seven bars, Monday to Sunday, each holding the total of the sessions that start on that day |
| Aggregates.WeekTotalIsSessionsInWeek | src/App.tsx:483-484 | the week total equals the minutes of the sessions that start within that Monday-to-Sunday week |
| Aggregates.DayTotalsMap | src/App.tsx:2406-2410 | the per-day map's keys are exactly the session days, and each value is that day's total |
| Aggregates.CurrentStreak | src/App.tsx:2404-2421 | the streak counts the days back from today whose total is positive; it ends at the first day without study; an empty log or a study-free today gives 0 |
| Aggregates.StreakNeverShrinks | src/App.tsx:2404-2421 | saving a session never lowers the current streak |
| Aggregates.StreakIgnoresDaysBeyondGap | src/App.tsx:2413-2419 | a session dated before the streak's first gap, or after today, does not change the streak |
| Aggregates.SortedDays | src/App.tsx:2425-2431 | the distinct session days, sorted ascending with no repeats |
| Aggregates.RunEndIsMaximalBlock | src/App.tsx:2433-2441 | the scan's running count at a key is the length of the block of consecutive days ending there |
| Aggregates.BestStreakAllTime | src/App.tsx:2423-2443 | the result is the length of the longest run of calendar-consecutive study days; it lies between 1 and the number of study days for a non-empty log, and is 0 for an empty one |
| Aggregates.LongestRunUnique | src/App.tsx:2423-2443 | the longest run has exactly one length, so the scan's result is determined by the day set |
| Aggregates.BestStreakIgnoresRepeatedDay | src/App.tsx:2429 | another session on a day that already has one does not change the best streak |
| Aggregates.MinutesOf | src/App.tsx:490 | the minutes column, whose sum is the log's total |
| Aggregates.Average | src/App.tsx:491 | the rounded mean: `avg` lies within half a minute of the exact mean; 0 for no sessions |
| Aggregates.AverageWithinRange | src/App.tsx:491 | the rounded mean lies between the shortest and the longest session |
| Aggregates.OrderStat | src/App.tsx:494 | the value at position `k` of the ascending sort is a member with at most `k` values below it and more than `k` at or below it |
| Aggregates.KthUnique | src/App.tsx:494 | that count characterisation names one value only, so it pins the sorted position independently of how the sort works |
| Aggregates.Median | src/App.tsx:492-496 | an odd count gives the middle order statistic; an even count gives the rounded mean of the two middle order statistics; 0 for no sessions; at most half the values lie strictly on each side of it |
| Aggregates.MedianOfTwo | src/App.tsx:495 | the median of 1 and 5 minutes is 3 |
| Aggregates.MedianWithinRange | src/App.tsx:492-496 | the median lies between the shortest and the longest session |
| Level.LadderTotalIsSum | src/App.tsx:2057-2060 | the twelve segments add up to 2700 minutes |
| Level.CumStartIncreasing | src/App.tsx:2064-2068 | segment start offsets strictly increase |
| Level.HoldsUnique | src/App.tsx:2065-2069 | a total falls in one segment only |
| Level.LevelProgress | src/App.tsx:2056-2087 | below 2700 minutes the segment is the one containing the total; its percentage is the rounded share of the segment done, within 0..100; the minutes to the next segment are positive; from 2700 up the label is Diamond I at 100 % with no next level |
| Level.LevelMonotone | src/App.tsx:2062-2072 | more minutes never move to a lower segment nor lower the percentage within a segment |
| Habits.AddHabit | src/App.tsx:561 | a blank name changes nothing; otherwise a habit with the trimmed name and no checks is appended after the existing ones |
| Habits.WeekDays | src/App.tsx:554-559 | seven increasing day keys of the shown week, Monday to Sunday |
| Habits.ToggleHabit | src/App.tsx:562-569 | only the habit with the id changes, and in it only the chosen day of the shown week flips |
| Habits.ToggleTwiceRestores | src/App.tsx:562-569 | toggling the same day twice restores which days are checked |
| Habits.DeleteHabit | src/App.tsx:570 | exactly the habits with other ids remain, each as often as before |
| Habits.DeleteHabitKeepsOrder | src/App.tsx:570 | deletion works part by part on a concatenated list, so the remaining habits keep their order |
| Habits.DeleteUndoesAdd | src/App.tsx:570 | deleting a just-added habit restores the list |
| Habits.RenameHabit | src/App.tsx:571 | the habit with the id takes the new name; ids, checks and other names are unchanged |
| Habits.HabitStreak | src/App.tsx:572-576 | the number of consecutive checked days ending today, stopped by the first unchecked day |
| Habits.HabitStreakUnique | src/App.tsx:572-576 | a checked run ending today with an unchecked day before it is the habit streak |
| Habits.ThreeDayStreak | src/App.tsx:572-576 | three checked days ending today after an unchecked one give a streak of 3 |
| Habits.ToggleTodayStreak | src/App.tsx:562-576 | checking today extends yesterday's streak by one, and unchecking today drops the streak to 0 |
| Stopwatch.Start | src/App.tsx:1366-1374 | from idle the stopwatch runs, anchored so that the elapsed count continues, with the laps, lap mark and pause start kept; from another mode nothing changes |
| Stopwatch.Tick | src/App.tsx:1369-1372 | while running with a set anchor, the elapsed time is the floor of the seconds since the anchor; otherwise nothing changes; the anchor, pause start, laps and lap mark are kept |
| Stopwatch.Pause | src/App.tsx:1376-1384 | a running stopwatch pauses and remembers when; pause time is not yet added, and the anchor, laps and lap mark are kept |
| Stopwatch.Resume | src/App.tsx:1386-1394 | a paused stopwatch adds the whole seconds of the pause, never negative, and runs again with laps and lap mark kept |
| Stopwatch.TakeLap | src/App.tsx:1396-1401 | a lap records the current total, and its split is the time since the previous lap, never negative; the lap goes first; the anchor and pause start are kept, so the running count continues |
| Stopwatch.StopSave | src/App.tsx:1403-1420 | outside idle it saves the rounded work minutes, at least one, and the rounded pause minutes; it then resets to idle with no laps |
| Stopwatch.LapKeepsSplitsSum | src/App.tsx:1396-1401 | with laps taken at non-decreasing totals, the splits add up to the latest total |
| Stopwatch.TransitionsKeepLapsConsistent | src/App.tsx:1366-1420 | no transition breaks the lap bookkeeping: the last lap mark is the newest lap's total (0 without laps) and the splits add up to it |
| Stopwatch.TickNeverDecreases | src/App.tsx:1369-1372 | with a clock that does not run backwards, the elapsed count never goes down |
| Stopwatch.ResumeThenTickSkipsPause | src/App.tsx:1386-1394 | after resuming, the elapsed count continues from where it paused; the pause is not counted as work |
| Stopwatch.WorkPauseResumeSave | src/App.tsx:1403-1420 | 90 s of work and a 30 s pause, resumed before saving, save as 2 minutes of work and 1 of pause |
| Stopwatch.StopSaveDropsCurrentPause | src/App.tsx:1405-1413 | saving while paused loses the pause in progress: 60 s of work then a 120 s pause save as 1 and 0 |
| Stopwatch.StopSaveIntended | src/App.tsx:1405-1413 | the corrected save counts the pause in progress; otherwise it saves what the original saves |
| Stopwatch.StopSaveIntendedCountsCurrentPause | src/App.tsx:1405-1413 | in the same scenario the corrected save records 1 minute of work and 2 of pause |
| Stopwatch.StopSaveIntendedMatchesResumeFirst | src/App.tsx:1405-1413 | the corrected save from a pause saves what resuming and then saving would save |
| Pomodoro.Caption | src/App.tsx:1530 | the caption is "Pomodoro ", the decimal focus length and "m", and the digits read back as that length |
| Pomodoro.DecimalRoundTrip | src/App.tsx:1530 | the decimal rendering of a natural number parses back to it |
| Pomodoro.Expire | src/App.tsx:1524-1546 | one tick counts down; at the last second a focus phase is reported with the captured focus length and the completed count grows, followed by a long break after every fourth completion and a short one otherwise; a break returns to focus; the countdown stops |
| Pomodoro.Handle | src/App.tsx:1521-1568 | disabled buttons do nothing; only a tick that ends a focus phase reports a completion and bumps the count; start and resume run with the current durations and change nothing else; pause only changes the mode; reset and skip stop the countdown |
| Pomodoro.PauseResumeContinues | src/App.tsx:1550-1556 | pausing and then resuming continues the countdown where it stopped, in the same phase with the same count, under either idle effect |
| Pomodoro.SetDurationHandler | src/App.tsx:1498-1504 | the picker sets one duration; the countdown is reloaded only when idle in the matching phase |
| Pomodoro.Dispatch | src/App.tsx:1514-1547 | an event followed by the idle effect as written keeps the handler's completions and count, and every event that stops the timer leaves it in focus |
| Pomodoro.DispatchKeepsValid | src/App.tsx:1489-1568 | every event, under either idle effect, keeps all durations at least one minute, the countdown at least one second and the counter non-negative |
| Pomodoro.Step | src/App.tsx:1514-1547 | one event under either idle effect reports what the handler reports and keeps its completed count |
| Pomodoro.Run | src/App.tsx:1489-1568 | any sequence of events keeps the timer state valid |
| Pomodoro.CompletionsMatchCounter | src/App.tsx:1529-1533 | over any run without reset, under either idle effect, the completed count grows by exactly the number of reported focus phases |
| Pomodoro.CompletionsAreFocusPhases | src/App.tsx:1529-1530 | every reported session carries the captured focus length and its caption |
| Pomodoro.IdleIsAlwaysFocus | src/App.tsx:1514-1519 | whenever an event stops the timer, it lands in a full focus phase, never in a break |
| Pomodoro.FocusEndSkipsBreak | src/App.tsx:1534-1541 | the first completed focus phase ends in a 25-minute focus countdown, not a 5-minute break |
| Pomodoro.SettleIdle | src/App.tsx:1514-1519 | the idle effect as written: when the timer has just become idle, or the focus length changed while idle, the phase is forced to focus with a full focus countdown, whatever break the tick handler chose; otherwise nothing changes |
| Pomodoro.SettleIdleIntended | src/App.tsx:1514-1519 | the corrected idle effect refreshes only a focus countdown and leaves a break in place |
| Pomodoro.DispatchIntended | src/App.tsx:1514-1547 | with the corrected effect, the phase after an event is the handler's phase |
| Pomodoro.IntendedReachesBreaks | src/App.tsx:1529-1541 | with the corrected effect, a focus phase ends in the short or long break the handler chose, with its captured length, and a break ends in focus |
| Pomodoro.IntendedFocusEndStartsShortBreak | src/App.tsx:1534-1538 | with the corrected effect, the first completed focus phase starts a 5-minute short break |

## Left out

- The user interface is not modelled: React rendering, JSX, translations, CSS, SVG wheels and drag gestures, sounds, and notifications.
- Persistence is not modelled: Supabase sign-in, `localStorage`, and JSON backup and restore. The log, projects and habits are plain values.
- `setInterval`, `Date.now()` and `crypto.randomUUID()` are replaced by a `Tick(now)` event, an instant parameter and an id parameter.
- Time zones and daylight saving are not modelled. `date-fns` is taken to map instants to local days like `Days.DayOf`. Day keys compare like day numbers.
- The best-streak loop's `Math.round(... / 86400000)` day difference is modelled as the difference of day numbers. That is what it computes when day starts are a whole number of days apart.
- `TasksCard`, `CalendarCard`, the habit card's 30-day chain display, the recent-sessions filter and the `fmtMs` clock digits are outside this model. They are display-only.
- The wheel picker's range and the stopwatch/pomodoro mode switch are not modelled as components. The picker only produces `SetDuration` events within its range.
- React StrictMode's double invocation of state updaters is not modelled. Every handler is taken to run once.
- Util.RoundDiv: only integer quotients are modelled. `Math.round` on floating-point values that are not whole-number ratios does not occur in the modelled code.
- Level.LevelProgress: the percentage is `Math.round` of an exact rational. Floating-point division can round a true half the other way; this is not modelled.
- Pomodoro.SetDurationHandler: the `SetDuration` event is enabled only for values within the picker's range (1..180, 1..60, 1..120). The handler itself accepts any value the picker sends.
- Habits.ToggleHabit: requires the day index 0..6 that the seven rendered cells produce. The source reads `undefined` for other indices.
- Habits.RenameHabit: stores the name as given. The habit card trims it before calling.
- Util.FmtHm: returns the label's shape and numbers (`HmLabel`) rather than the text "1h 5m"; the text is that shape written out, so nothing is lost.
- Aggregates.CurrentStreak: counts over the whole log, as the app does, not over the project filter.

## Findings

| source | as written | input that shows it | evidently intended | confidence | as-written member | corrected member |
|---|---|---|---|---|---|---|
| src/App.tsx:1514-1519 | the idle effect runs whenever the timer becomes idle and sets the phase to focus with a full focus countdown, which undoes the break the tick handler just chose | start the first focus phase and let its last second tick: the timer lands idle in focus with 25:00 instead of in a 5:00 short break | when a focus phase ends, a short break follows, or a long one after every fourth | not executed | Pomodoro.Dispatch, Pomodoro.FocusEndSkipsBreak | Pomodoro.DispatchIntended, Pomodoro.IntendedFocusEndStartsShortBreak |
| src/App.tsx:1405-1413 | stop-and-save adds the pause in progress through a state updater, but reads `pausedSec` from the same render, so the added seconds are never saved | start, run 60 s, pause, then stop and save 120 s later: the saved session has 1 minute of work and 0 minutes of pause | the pause in progress counts, as if the user had resumed first: 1 minute of work and 2 of pause | not executed | Stopwatch.StopSave, Stopwatch.StopSaveDropsCurrentPause | Stopwatch.StopSaveIntended, Stopwatch.StopSaveIntendedCountsCurrentPause |

=== FILE: aggregates.dfy ===
/** The aggregate engine: pure functions over the session log that the
    statistics cards show (week histogram, current streak, best streak,
    average and median session length). */
module Aggregates {

  import opened Util
  import opened Seqs
  import opened Days
  import opened Sessions

  /** The statistics filter value that selects every project. */
  const AllProjects: string := "__ALL__"

  /** Whether a statistics filter selects a session. */
  function Selects(filter: string): Session -> bool {
    (s: Session) => filter == AllProjects || s.project == filter
  }

  /** The sessions a statistics filter selects, in log order and as often
      as they occur. */
  function Filtered(ss: seq<Session>, filter: string): (r: seq<Session>)
    ensures filter == AllProjects ==> r == ss
    ensures filter != AllProjects ==> forall i :: 0 <= i < |r| ==> r[i].project == filter && r[i] in ss
    ensures filter != AllProjects ==> forall i :: 0 <= i < |ss| && ss[i].project == filter ==> ss[i] in r
    ensures forall s :: multiset(r)[s] == (if Selects(filter)(s) then multiset(ss)[s] else 0)
  {
    if filter == AllProjects then ss
    else
      var r := Filter(ss, Selects(filter));
      assert forall s :: multiset(r)[s] == (if Selects(filter)(s) then multiset(ss)[s] else 0) by {
        forall s ensures multiset(r)[s] == (if Selects(filter)(s) then multiset(ss)[s] else 0) {
          FilterMultiplicity(ss, Selects(filter), s);
        }
      }
      r
  }

  /** Filtering a concatenation filters each part and keeps them in order;
      a single session is selected exactly when the filter selects it. So
      saving a session adds it to the filtered log exactly when it belongs
      to the filtered project. */
  lemma FilteredKeepsOrder(a: seq<Session>, b: seq<Session>, filter: string)
    ensures Filtered(a + b, filter) == Filtered(a, filter) + Filtered(b, filter)
    ensures |a| == 1 ==> Filtered(a, filter) == (if Selects(filter)(a[0]) then a else [])
  {
    if filter != AllProjects {
      FilterAppend(a, b, Selects(filter));
    }
  }

  /** The filtered totals add up: the minutes of a project's sessions plus
      the minutes of all other sessions are the log's total. */
  lemma {:induction false} FilteredTotalsSplit(ss: seq<Session>, project: string)
    requires project != AllProjects
    ensures TotalMinutes(Filtered(ss, project)) + TotalMinutes(Filter(ss, OutsideOf(project))) == TotalMinutes(ss)
  {
    if |ss| > 0 {
      assert ss == [ss[0]] + ss[1..];
      FilteredKeepsOrder([ss[0]], ss[1..], project);
      FilterAppend([ss[0]], ss[1..], OutsideOf(project));
      TotalMinutesAppend(Filtered([ss[0]], project), Filtered(ss[1..], project));
      TotalMinutesAppend(Filter([ss[0]], OutsideOf(project)), Filter(ss[1..], OutsideOf(project)));
      FilteredTotalsSplit(ss[1..], project);
    }
  }

  function OutsideOf(project: string): Session -> bool {
    (s: Session) => s.project != project
  }

  // ---------------------------------------------------------------------
  // Week histogram

  /** Minutes that fill a bar completely. */
  const FullBarMinutes: int := 360

  datatype Bar = Bar(weekday: Weekday, minutes: int, height: real)

  /** Bar height for a day's minutes: the share of six hours, clamped to
      `[0, 1]`. */
  function BarHeight(m: int): (h: real)
    ensures 0.0 <= h <= 1.0
    ensures m >= 0 ==> h == Min(m, FullBarMinutes) as real / FullBarMinutes as real
    ensures m <= 0 ==> h == 0.0
    ensures m >= FullBarMinutes ==> h == 1.0
  {
    Clamp(m as real / FullBarMinutes as real, 0.0, 1.0)
  }

  /** `computeWeekBars`: one bar per day of the Monday-to-Sunday week that
      contains `ref`, holding that day's minute total and its height. */
  function WeekBars(ss: seq<Session>, ref: int): (bars: seq<Bar>)
    ensures |bars| == 7
    ensures forall i :: 0 <= i < 7 ==> bars[i].weekday == WeekOrder[i]
    ensures forall i :: 0 <= i < 7 ==> bars[i].minutes == DayTotal(ss, StartOfWeek(ref) + i)
    ensures forall i :: 0 <= i < 7 ==> bars[i].height == BarHeight(bars[i].minutes)
  {
    var s := StartOfWeek(ref);
    var bars := seq(7, i requires 0 <= i < 7 =>
      Bar(WeekdayOf(s + i), DayTotal(ss, s + i), BarHeight(DayTotal(ss, s + i))));
    assert forall i :: 0 <= i < 7 ==> bars[i].weekday == WeekOrder[i] by {
      forall i | 0 <= i < 7 ensures bars[i].weekday == WeekOrder[i] {
        WeekDayInOrder(ref, i);
      }
    }
    bars
  }

  /** `weekBars.reduce((acc, b) => acc + b.minutes, 0)`. */
  function BarsTotal(bars: seq<Bar>): int {
    if |bars| == 0 then 0 else bars[0].minutes + BarsTotal(bars[1..])
  }

  /** The sessions that started on one of the `n` days from `from`. */
  function StartedIn(from: int, n: int): Session -> bool {
    (s: Session) => from <= Day(s) < from + n
  }

  /** The week's total is the total of the sessions that started in that
      week. */
  lemma WeekTotalIsSessionsInWeek(ss: seq<Session>, ref: int)
    ensures BarsTotal(WeekBars(ss, ref)) == TotalMinutes(Filter(ss, StartedIn(StartOfWeek(ref), 7)))
  {
    var m := StartOfWeek(ref);
    var bars := WeekBars(ss, ref);
    assert BarsTotal(bars) == SumDays(ss, m, 7) by {
      BarsTotalIsSumDays(bars, ss, m, 7);
    }
    SumDaysIsFilteredTotal(ss, m, 7);
  }

  /** Sum of the day totals of `n` consecutive days from `from`. */
  function SumDays(ss: seq<Session>, from: int, n: nat): int
    decreases n
  {
    if n == 0 then 0 else DayTotal(ss, from) + SumDays(ss, from + 1, n - 1)
  }

  lemma {:induction false} BarsTotalIsSumDays(bars: seq<Bar>, ss: seq<Session>, from: int, n: nat)
    requires |bars| == n
    decreases n
    requires forall i :: 0 <= i < n ==> bars[i].minutes == DayTotal(ss, from + i)
    ensures BarsTotal(bars) == SumDays(ss, from, n)
  {
    if n > 0 {
      BarsTotalIsSumDays(bars[1..], ss, from + 1, n - 1);
    }
  }

  /** Summing the day totals of consecutive days counts every session
      that started on one of them once. */
  lemma {:induction false} SumDaysIsFilteredTotal(ss: seq<Session>, m: int, n: nat)
    ensures SumDays(ss, m, n) == TotalMinutes(Filter(ss, StartedIn(m, n)))
  {
    var keep := StartedIn(m, n);
    if |ss| == 0 {
      SumDaysEmpty(ss, m, n);
    } else {
      SumDaysIsFilteredTotal(ss[1..], m, n);
      SumDaysCons(ss, m, n);
      SumDaysOneSession(ss[0], m, n);
      assert ss == [ss[0]] + ss[1..];
      var rest := Filter(ss[1..], keep);
      if keep(ss[0]) {
        assert Filter(ss, keep) == [ss[0]] + rest;
        TotalMinutesAppend([ss[0]], rest);
      } else {
        assert Filter(ss, keep) == rest;
      }
    }
  }

  lemma {:induction false} SumDaysEmpty(ss: seq<Session>, from: int, n: nat)
    requires |ss| == 0
    ensures SumDays(ss, from, n) == 0
    decreases n
  {
    if n > 0 {
      SumDaysEmpty(ss, from + 1, n - 1);
    }
  }

  lemma {:induction false} SumDaysCons(ss: seq<Session>, from: int, n: nat)
    requires |ss| > 0
    ensures SumDays(ss, from, n) == SumDays([ss[0]], from, n) + SumDays(ss[1..], from, n)
    decreases n
  {
    if n > 0 {
      SumDaysCons(ss, from + 1, n - 1);
      assert ss == [ss[0]] + ss[1..];
      DayTotalAppend([ss[0]], ss[1..], from);
    }
  }

  /** One session contributes its minutes to the `n` days from `from` exactly
      when it started on one of them. */
  lemma {:induction false} SumDaysOneSession(s: Session, from: int, n: nat)
    ensures SumDays([s], from, n) == if from <= Day(s) < from + n then s.minutes else 0
    decreases n
  {
    if n > 0 {
      SumDaysOneSession(s, from + 1, n - 1);
      assert [s][1..] == [];
      assert DayTotal([s], from) == if Day(s) == from then s.minutes else 0;
    }
  }

  // ---------------------------------------------------------------------
  // Per-day totals and the current streak

  /** The day-to-minutes map `computeStreakDays` builds; a day it lacks
      reads as 0, and every lookup agrees with the per-day total. */
  method DayTotalsMap(ss: seq<Session>) returns (m: map<int, int>)
    ensures m.Keys == DaySet(ss)
    ensures forall d :: (if d in m then m[d] else 0) == DayTotal(ss, d)
  {
    m := map[];
    var i := 0;
    while i < |ss|
      invariant 0 <= i <= |ss|
      invariant m.Keys == DaySet(ss[..i])
      invariant forall d :: d in m ==> m[d] == DayTotal(ss[..i], d)
    {
      var k := Day(ss[i]);
      assert ss[..i + 1] == ss[..i] + [ss[i]];
      DaySetAppendOne(ss[..i], ss[i]);
      if k !in m {
        DayTotalOutsideDaySet(ss[..i], k);
      }
      m := m[k := (if k in m then m[k] else 0) + ss[i].minutes];
      forall d | d in m ensures m[d] == DayTotal(ss[..i + 1], d) {
        DayTotalAppend(ss[..i], [ss[i]], d);
      }
      i := i + 1;
    }
    assert ss[..i] == ss;
    forall d ensures (if d in m then m[d] else 0) == DayTotal(ss, d) {
      if d !in m {
        DayTotalOutsideDaySet(ss, d);
      }
    }
  }

  /** A positive day total needs a session on that day. */
  lemma PositiveTotalInDaySet(ss: seq<Session>)
    ensures forall d :: DayTotal(ss, d) > 0 ==> d in DaySet(ss)
  {
    forall d | DayTotal(ss, d) > 0 ensures d in DaySet(ss) {
      if d !in DaySet(ss) {
        DayTotalOutsideDaySet(ss, d);
      }
    }
  }

  /** `computeStreakDays`: the number of consecutive days, ending today,
      whose minute total is positive; 0 for an empty log. */
  function CurrentStreak(ss: seq<Session>, today: int): (n: nat)
    ensures |ss| == 0 ==> n == 0
    ensures forall d :: today - n < d <= today ==> DayTotal(ss, d) > 0
    ensures |ss| > 0 ==> DayTotal(ss, today - n) <= 0
    ensures DayTotal(ss, today) <= 0 ==> n == 0
  {
    if |ss| == 0 then 0
    else
      PositiveTotalInDaySet(ss);
      var on := (d: int) => DayTotal(ss, d) > 0;
      var n := BackRun(on, DaySet(ss), today);
      assert IsRunBack(on, today, n);
      assert forall d :: today - n < d <= today ==> DayTotal(ss, d) > 0 by {
        forall d | today - n < d <= today ensures DayTotal(ss, d) > 0 {
          assert on(d);
        }
      }
      assert !on(today - n);
      n
  }

  /** Logging more time never shortens the current streak. */
  lemma StreakNeverShrinks(ss: seq<Session>, rec: Session, today: int)
    requires rec.minutes >= 0
    ensures CurrentStreak(Prepend(ss, rec), today) >= CurrentStreak(ss, today)
  {
    var r := Prepend(ss, rec);
    if |ss| > 0 {
      PositiveTotalInDaySet(ss);
      PositiveTotalInDaySet(r);
      BackRunMonotone((d: int) => DayTotal(ss, d) > 0, (d: int) => DayTotal(r, d) > 0, DaySet(ss), DaySet(r), today);
    }
  }

  /** A session on a day the walk back from today never reaches (before the
      first day without minutes, or after today) leaves the streak as it
      was, provided it carries no negative minutes. */
  lemma StreakIgnoresDaysBeyondGap(ss: seq<Session>, rec: Session, today: int)
    requires rec.minutes >= 0
    requires Day(rec) < today - CurrentStreak(ss, today) || Day(rec) > today
    ensures CurrentStreak(Prepend(ss, rec), today) == CurrentStreak(ss, today)
  {
    var r := Prepend(ss, rec);
    PositiveTotalInDaySet(r);
    if |ss| > 0 {
      PositiveTotalInDaySet(ss);
      BackRunLocal((d: int) => DayTotal(ss, d) > 0, (d: int) => DayTotal(r, d) > 0, DaySet(ss), DaySet(r), today);
    } else {
      assert DayTotal(r, today) == 0;
    }
  }

  // ---------------------------------------------------------------------
  // Best streak of all time

  /** Every day of `[d, d + k)` is in `days`. */
  ghost predicate RunIn(days: set<int>, d: int, k: int) {
    forall x :: d <= x < d + k ==> x in days
  }

  /** `n` is the length of the longest run of consecutive days in `days`. */
  ghost predicate IsLongestRun(days: set<int>, n: nat) {
    && (n == 0 ==> days == {})
    && (n > 0 ==> exists d :: RunIn(days, d, n))
    && (forall d, k :: RunIn(days, d, k) ==> k <= n)
  }

  /** The longest run is well defined. */
  lemma LongestRunUnique(days: set<int>, a: nat, b: nat)
    requires IsLongestRun(days, a) && IsLongestRun(days, b)
    ensures a == b
  {
    if a > 0 {
      var d :| RunIn(days, d, a);
    }
    if b > 0 {
      var d :| RunIn(days, d, b);
    }
  }

  /** The day of each session, in log order. */
  function DayKeys(ss: seq<Session>): (ks: seq<int>)
    ensures |ks| == |ss|
    ensures forall i :: 0 <= i < |ss| ==> ks[i] == Day(ss[i])
  {
    seq(|ss|, i requires 0 <= i < |ss| => Day(ss[i]))
  }

  /** Length of the run of consecutive days that the scan has counted when it
      reaches position `i`: a gap of exactly one day extends it, anything
      else starts a new run. */
  function RunEnd(a: seq<int>, i: nat): (n: nat)
    requires i < |a|
    ensures 1 <= n <= i + 1
  {
    if i == 0 then 1
    else if a[i] - a[i - 1] == 1 then RunEnd(a, i - 1) + 1
    else 1
  }

  /** The scan loop of `computeStreakDaysAllTime` from position `i`, with
      `cur` the run at `i - 1` and `best` the longest run seen so far. */
  function ScanFrom(a: seq<int>, i: nat, cur: nat, best: nat): (r: nat)
    requires 1 <= i <= |a|
    requires cur == RunEnd(a, i - 1)
    ensures r >= best
    ensures forall j :: i <= j < |a| ==> RunEnd(a, j) <= r
    ensures r == best || exists j :: i <= j < |a| && r == RunEnd(a, j)
    decreases |a| - i
  {
    if i == |a| then best
    else
      var c := if a[i] - a[i - 1] == 1 then cur + 1 else 1;
      assert c == RunEnd(a, i);
      var r := ScanFrom(a, i + 1, c, Max(best, c));
      assert r == best || (i <= i < |a| && r == RunEnd(a, i)) || exists j :: i + 1 <= j < |a| && r == RunEnd(a, j);
      r
  }

  /** The scan over the sorted distinct days: 0 when there are none. */
  function ScanRuns(a: seq<int>): (r: nat)
    ensures |a| == 0 ==> r == 0
    ensures |a| > 0 ==> exists j :: 0 <= j < |a| && r == RunEnd(a, j)
    ensures forall j :: 0 <= j < |a| ==> RunEnd(a, j) <= r
  {
    if |a| == 0 then 0 else ScanFrom(a, 1, 1, 1)
  }

  /** In a strictly increasing sequence the run counted at `i` is exactly the
      block of consecutive values ending at `a[i]`. */
  lemma {:induction false} RunEndIsMaximalBlock(a: seq<int>, i: nat)
    requires StrictlyIncreasing(a) && i < |a|
    ensures forall x :: a[i] - RunEnd(a, i) < x <= a[i] ==> x in a
    ensures a[i] - RunEnd(a, i) !in a
  {
    if i == 0 {
      forall x | a[0] - 1 < x <= a[0] ensures x in a {
        assert x == a[0];
      }
    } else if a[i] - a[i - 1] == 1 {
      RunEndIsMaximalBlock(a, i - 1);
    } else {
      assert a[i - 1] < a[i];
      forall x | a[i] - 1 < x <= a[i] ensures x in a {
        assert x == a[i];
      }
    }
  }

  /** Pairwise distinct values: as many as their set has members. */
  lemma {:induction false} NoDuplicatesCard(a: seq<int>)
    requires NoDuplicates(a)
    ensures |set x | x in a| == |a|
  {
    if |a| > 0 {
      NoDuplicatesCard(a[1..]);
      assert (set x | x in a) == {a[0]} + (set x | x in a[1..]);
      assert a[0] !in a[1..] by {
        forall j | 0 <= j < |a| - 1 ensures a[1..][j] != a[0] {
          assert a[1..][j] == a[j + 1];
        }
      }
    }
  }

  /** The sorted distinct session days. */
  function SortedDays(ss: seq<Session>): (a: seq<int>)
    ensures StrictlyIncreasing(a)
    ensures (set x | x in a) == DaySet(ss)
    ensures |a| == |DaySet(ss)|
  {
    var ks := DayKeys(ss);
    var ds := Distinct(ks);
    SortStrict(ds);
    var a := Sort(ds);
    assert forall x :: x in a <==> x in ds by {
      forall x ensures x in a <==> x in ds {
        assert x in a <==> x in multiset(a);
      }
    }
    assert (set x | x in a) == DaySet(ss) by {
      forall x | x in DaySet(ss) ensures x in a {
        var i :| 0 <= i < |ss| && Day(ss[i]) == x;
        assert ks[i] == x;
      }
    }
    assert NoDuplicates(a) by {
      forall i, j | 0 <= i < j < |a| ensures a[i] != a[j] {
      }
    }
    NoDuplicatesCard(a);
    a
  }

  /** `computeStreakDaysAllTime`: the length of the longest run of
      calendar-consecutive days that have a session; 0 for an empty log. */
  function BestStreakAllTime(ss: seq<Session>): (n: nat)
    ensures |ss| == 0 ==> n == 0
    ensures |ss| > 0 ==> 1 <= n <= |DaySet(ss)|
    ensures IsLongestRun(DaySet(ss), n)
  {
    if |ss| == 0 then
      assert IsLongestRun(DaySet(ss), 0) by {
        forall d, k | RunIn(DaySet(ss), d, k) ensures k <= 0 {
          assert k > 0 ==> d in DaySet(ss);
        }
      }
      0
    else
      var a := SortedDays(ss);
      var n := ScanRuns(a);
      assert Day(ss[0]) in DaySet(ss);
      assert |a| > 0;
      assert ElemSet(a) == DaySet(ss);
      BestRunIsLongest(a, n);
      n
  }

  function ElemSet(a: seq<int>): set<int> {
    set x | x in a
  }

  lemma BestRunIsLongest(a: seq<int>, n: nat)
    requires StrictlyIncreasing(a) && |a| > 0
    requires exists j :: 0 <= j < |a| && n == RunEnd(a, j)
    requires forall j :: 0 <= j < |a| ==> RunEnd(a, j) <= n
    ensures n <= |a|
    ensures IsLongestRun(ElemSet(a), n)
  {
    var days := ElemSet(a);
    var j :| 0 <= j < |a| && n == RunEnd(a, j);
    RunEndIsMaximalBlock(a, j);
    assert RunIn(days, a[j] - n + 1, n);
    forall d, k | RunIn(days, d, k) ensures k <= n {
      if k > 0 {
        var e := d + k - 1;
        assert e in days;
        var t :| 0 <= t < |a| && a[t] == e;
        RunEndIsMaximalBlock(a, t);
        var x := a[t] - RunEnd(a, t);
        assert x !in days;
        assert !(d <= x < d + k);
      }
    }
  }

  /** A session on a day that already has one does not change the best
      streak. */
  lemma BestStreakIgnoresRepeatedDay(ss: seq<Session>, rec: Session)
    requires Day(rec) in DaySet(ss)
    ensures BestStreakAllTime(Prepend(ss, rec)) == BestStreakAllTime(ss)
  {
    var r := Prepend(ss, rec);
    assert DaySet(r) == DaySet(ss);
    LongestRunUnique(DaySet(ss), BestStreakAllTime(r), BestStreakAllTime(ss));
  }

  // ---------------------------------------------------------------------
  // Average and median session length

  function Sum(xs: seq<int>): int {
    if |xs| == 0 then 0 else xs[0] + Sum(xs[1..])
  }

  /** The minutes of each session, in log order (`filtered.map(s => s.minutes)`). */
  function MinutesOf(ss: seq<Session>): (xs: seq<int>)
    ensures |xs| == |ss|
    ensures forall i :: 0 <= i < |ss| ==> xs[i] == ss[i].minutes
    ensures Sum(xs) == TotalMinutes(ss)
  {
    if |ss| == 0 then [] else [ss[0].minutes] + MinutesOf(ss[1..])
  }

  /** The `avg` statistic: the mean rounded half up, 0 when there are no
      sessions. */
  function Average(xs: seq<int>): (r: int)
    ensures |xs| == 0 ==> r == 0
    ensures |xs| > 0 ==> |xs| * (2 * r - 1) <= 2 * Sum(xs) < |xs| * (2 * r + 1)
  {
    if |xs| == 0 then 0 else RoundDiv(Sum(xs), |xs|)
  }

  lemma {:induction false} SumBounds(xs: seq<int>, lo: int, hi: int)
    requires forall i :: 0 <= i < |xs| ==> lo <= xs[i] <= hi
    ensures |xs| * lo <= Sum(xs) <= |xs| * hi
  {
    if |xs| > 0 {
      SumBounds(xs[1..], lo, hi);
    }
  }

  /** The average lies between the shortest and the longest session. */
  lemma AverageWithinRange(xs: seq<int>, lo: int, hi: int)
    requires |xs| > 0
    requires forall i :: 0 <= i < |xs| ==> lo <= xs[i] <= hi
    ensures lo <= Average(xs) <= hi
  {
    SumBounds(xs, lo, hi);
    RoundDivBetween(Sum(xs), |xs|, lo, hi);
  }

  function Below(r: int): int -> bool { (y: int) => y < r }
  function Above(r: int): int -> bool { (y: int) => y > r }
  function AtMost(r: int): int -> bool { (y: int) => y <= r }
  function AtLeast(r: int): int -> bool { (y: int) => y >= r }

  /** `v` is the value at position `k` (from 0) of the ascending order of
      `xs`: at most `k` values lie below it and more than `k` lie at or
      below it. */
  ghost predicate IsKth(xs: seq<int>, k: nat, v: int) {
    Count(xs, Below(v)) <= k < Count(xs, AtMost(v))
  }

  /** Position `k` of the ascending order names one value only. */
  lemma KthUnique(xs: seq<int>, k: nat, v: int, w: int)
    requires IsKth(xs, k, v) && IsKth(xs, k, w)
    ensures v == w
  {
    if v < w {
      CountMonotone(xs, AtMost(v), Below(w));
    } else if w < v {
      CountMonotone(xs, AtMost(w), Below(v));
    }
  }

  /** The value at position `k` of `[...xs].sort((x, y) => x - y)`. */
  function OrderStat(xs: seq<int>, k: nat): (v: int)
    requires k < |xs|
    ensures IsKth(xs, k, v)
    ensures v in xs
  {
    SortedKth(xs, k);
    Sort(xs)[k]
  }

  lemma SortedKth(xs: seq<int>, k: nat)
    requires k < |xs|
    ensures IsKth(xs, k, Sort(xs)[k])
    ensures Sort(xs)[k] in xs
  {
    var a := Sort(xs);
    var v := a[k];
    assert forall i :: k <= i < |a| ==> !Below(v)(a[i]) by {
      forall i | k <= i < |a| ensures !Below(v)(a[i]) {
        assert i == k || a[k] <= a[i];
      }
    }
    CountAtMostPrefix(a, Below(v), k);
    assert forall i :: 0 <= i < k + 1 ==> AtMost(v)(a[i]) by {
      forall i | 0 <= i < k + 1 ensures AtMost(v)(a[i]) {
        assert i == k || a[i] <= a[k];
      }
    }
    CountAtLeastPrefix(a, AtMost(v), k + 1);
    CountSort(xs, Below(v));
    CountSort(xs, AtMost(v));
    assert v in multiset(a);
  }

  /** The `median` statistic: the middle of the ascending order, or the
      rounded mean of the two middle values for an even count; 0 when there
      are no sessions. At most half the values lie on either side of it,
      and some value lies on each side (or on it). */
  function Median(xs: seq<int>): (r: int)
    ensures |xs| == 0 ==> r == 0
    ensures |xs| % 2 == 1 ==> r == OrderStat(xs, |xs| / 2)
    ensures |xs| > 0 && |xs| % 2 == 0 ==> r == RoundDiv(OrderStat(xs, |xs| / 2 - 1) + OrderStat(xs, |xs| / 2), 2)
    ensures |xs| > 0 ==> Count(xs, Below(r)) <= |xs| / 2
    ensures |xs| > 0 ==> Count(xs, Above(r)) <= |xs| / 2
    ensures |xs| > 0 ==> Count(xs, AtMost(r)) >= 1 && Count(xs, AtLeast(r)) >= 1
    ensures |xs| % 2 == 1 ==> r in xs
  {
    if |xs| == 0 then 0
    else
      var m := |xs| / 2;
      var l := (|xs| - 1) / 2;
      assert if |xs| % 2 == 1 then l == m else l == m - 1;
      var lo := OrderStat(xs, l);
      var hi := OrderStat(xs, m);
      var r := if |xs| % 2 == 1 then hi else RoundDiv(lo + hi, 2);
      MedianFacts(xs, lo, hi, r);
      r
  }

  /** An even count rounds the mean of the two middle values: the median
      of 1 and 5 minutes is 3, not either middle value. */
  lemma MedianOfTwo()
    ensures Median([1, 5]) == 3
  {
    var xs := [1, 5];
    assert IsKth(xs, 0, 1);
    KthUnique(xs, 0, 1, OrderStat(xs, 0));
    assert IsKth(xs, 1, 5);
    KthUnique(xs, 1, 5, OrderStat(xs, 1));
    RoundDivUnique(6, 2, 3);
  }

  lemma MedianFacts(xs: seq<int>, lo: int, hi: int, r: int)
    requires |xs| > 0
    requires lo == OrderStat(xs, (|xs| - 1) / 2) && hi == OrderStat(xs, |xs| / 2)
    requires r == (if |xs| % 2 == 1 then hi else RoundDiv(lo + hi, 2))
    ensures Count(xs, Below(r)) <= |xs| / 2
    ensures Count(xs, Above(r)) <= |xs| / 2
    ensures Count(xs, AtMost(r)) >= 1 && Count(xs, AtLeast(r)) >= 1
  {
    var a := Sort(xs);
    assert lo == a[(|a| - 1) / 2] && hi == a[|a| / 2];
    MiddleBounds(a, lo, hi, r);
    MedianOfSorted(a, r);
    SortKeepsSideCounts(xs, r);
  }

  /** The rounded mean of the two middle elements lies between them. */
  lemma MiddleBounds(a: seq<int>, lo: int, hi: int, r: int)
    requires Sorted(a) && |a| > 0
    requires lo == a[(|a| - 1) / 2] && hi == a[|a| / 2]
    requires r == (if |a| % 2 == 1 then hi else RoundDiv(lo + hi, 2))
    ensures lo <= r <= hi
  {
    if |a| % 2 == 0 {
      RoundDivBetween(lo + hi, 2, lo, hi);
    } else {
      assert (|a| - 1) / 2 == |a| / 2;
    }
  }

  lemma SortKeepsSideCounts(xs: seq<int>, r: int)
    ensures Count(Sort(xs), Below(r)) == Count(xs, Below(r))
    ensures Count(Sort(xs), Above(r)) == Count(xs, Above(r))
    ensures Count(Sort(xs), AtMost(r)) == Count(xs, AtMost(r))
    ensures Count(Sort(xs), AtLeast(r)) == Count(xs, AtLeast(r))
  {
    CountSort(xs, Below(r));
    CountSort(xs, Above(r));
    CountSort(xs, AtMost(r));
    CountSort(xs, AtLeast(r));
  }

  /** A value between the two middle elements of a sorted sequence splits
      it in halves. */
  lemma MedianOfSorted(a: seq<int>, r: int)
    requires Sorted(a) && |a| > 0
    requires a[(|a| - 1) / 2] <= r <= a[|a| / 2]
    ensures Count(a, Below(r)) <= |a| / 2
    ensures Count(a, Above(r)) <= |a| / 2
    ensures Count(a, AtMost(r)) >= 1 && Count(a, AtLeast(r)) >= 1
  {
    var mid := |a| / 2;
    var lowMid := (|a| - 1) / 2;
    forall i | mid <= i < |a| ensures !Below(r)(a[i]) {
      assert mid == i || a[mid] <= a[i];
    }
    CountAtMostPrefix(a, Below(r), mid);
    forall i | 0 <= i < lowMid + 1 ensures !Above(r)(a[i]) {
      assert i == lowMid || a[i] <= a[lowMid];
    }
    CountAtMostSuffix(a, Above(r), lowMid + 1);
    CountAtLeastOne(a, AtMost(r), lowMid);
    CountAtLeastOne(a, AtLeast(r), mid);
  }

  lemma {:induction false} CountAtLeastOne(xs: seq<int>, p: int -> bool, k: nat)
    requires k < |xs| && p(xs[k])
    ensures Count(xs, p) >= 1
  {
    if k > 0 {
      CountAtLeastOne(xs[1..], p, k - 1);
    }
  }

  /** The median lies between the shortest and the longest session. */
  lemma MedianWithinRange(xs: seq<int>, lo: int, hi: int)
    requires |xs| > 0
    requires forall i :: 0 <= i < |xs| ==> lo <= xs[i] <= hi
    ensures lo <= Median(xs) <= hi
  {
    var r := Median(xs);
    if r < lo {
      CountAllBelow(xs, Below(lo), r);
    } else if r > hi {
      CountAllAbove(xs, hi, r);
    }
  }

  lemma {:induction false} CountAllBelow(xs: seq<int>, p: int -> bool, r: int)
    requires forall i :: 0 <= i < |xs| ==> !AtMost(r)(xs[i])
    ensures Count(xs, AtMost(r)) == 0
  {
    CountNone(xs, AtMost(r));
  }

  lemma {:induction false} CountAllAbove(xs: seq<int>, hi: int, r: int)
    requires r > hi
    requires forall i :: 0 <= i < |xs| ==> xs[i] <= hi
    ensures Count(xs, AtLeast(r)) == 0
  {
    CountNone(xs, AtLeast(r));
  }
}

=== FILE: days.dfy ===
/** Calendar days as integer day numbers. Day 0 is 1970-01-01, a Thursday;
    instants are integer milliseconds since that day's midnight. The
    `yyyy-MM-dd` day keys of the app are in one-to-one, order-preserving
    correspondence with these numbers. */
module Days {

  import Util

  const MsPerDay: int := 86_400_000

  /** The day an instant falls on (`startOfDay`). */
  function DayOf(t: int): (d: int)
    ensures d * MsPerDay <= t < (d + 1) * MsPerDay
  {
    t / MsPerDay
  }

  datatype Weekday = Mon | Tue | Wed | Thu | Fri | Sat | Sun

  /** The weekdays in the order of a week that starts on Monday. */
  const WeekOrder: seq<Weekday> := [Mon, Tue, Wed, Thu, Fri, Sat, Sun]

  /** Position of a day within its Monday-to-Sunday week, 0 for Monday. */
  function WeekIndex(d: int): (i: int)
    ensures 0 <= i < 7
    ensures (d + 3 - i) % 7 == 0
  {
    (d + 3) % 7
  }

  /** The next day is the next weekday, Sunday wrapping to Monday. */
  lemma WeekIndexNext(d: int)
    ensures WeekIndex(d) < 6 ==> WeekIndex(d + 1) == WeekIndex(d) + 1
    ensures WeekIndex(d) == 6 ==> WeekIndex(d + 1) == 0
  {
    var q := (d + 3) / 7;
    if WeekIndex(d) < 6 {
      Util.EuclidUnique(d + 4, 7, q, WeekIndex(d) + 1);
    } else {
      Util.EuclidUnique(d + 4, 7, q + 1, 0);
    }
  }

  function WeekdayOf(d: int): Weekday {
    WeekOrder[WeekIndex(d)]
  }

  /** `startOfWeek(d, {weekStartsOn: 1})`: the Monday on or before `d`. */
  function StartOfWeek(d: int): (m: int)
    ensures m <= d < m + 7
    ensures WeekdayOf(m) == Mon
  {
    var m := d - WeekIndex(d);
    Util.EuclidUnique(m + 3, 7, (d + 3) / 7, 0);
    m
  }

  /** Day `i` of the week that contains `d` is the `i`-th weekday, Monday
      first. */
  lemma WeekDayInOrder(d: int, i: int)
    requires 0 <= i < 7
    ensures WeekIndex(StartOfWeek(d) + i) == i
    ensures WeekdayOf(StartOfWeek(d) + i) == WeekOrder[i]
  {
    var m := StartOfWeek(d);
    Util.EuclidUnique(m + i + 3, 7, (d + 3) / 7, i);
  }

  /** Every day in `(day - n, day]` satisfies `on`, and day `day - n` does
      not: `n` is the length of the run of `on` days ending at `day`. */
  ghost predicate IsRunBack(on: int -> bool, day: int, n: nat) {
    && (forall d :: day - n < d <= day ==> on(d))
    && !on(day - n)
  }

  /** The days of `support` on or before `day`. */
  function UpTo(support: set<int>, day: int): set<int> {
    set x | x in support && x <= day
  }

  lemma ProperSubsetSmaller(a: set<int>, b: set<int>, x: int)
    requires a <= b && x in b && x !in a
    ensures |a| < |b|
  {
    var c := b - a;
    assert b == a + c;
    assert x in c;
  }

  /** The walk `while (on(cur)) { c++; cur = cur - 1 }` started at `day`.
      It ends because every day it passes is in the finite `support`. */
  function BackRun(on: int -> bool, support: set<int>, day: int): (n: nat)
    requires forall d :: on(d) ==> d in support
    ensures IsRunBack(on, day, n)
    decreases |UpTo(support, day)|
  {
    if on(day) then
      ProperSubsetSmaller(UpTo(support, day - 1), UpTo(support, day), day);
      1 + BackRun(on, support, day - 1)
    else 0
  }

  /** A backward run has one length only. */
  lemma RunBackUnique(on: int -> bool, day: int, n: nat, m: nat)
    requires IsRunBack(on, day, n) && IsRunBack(on, day, m)
    ensures n == m
  {
  }

  /** More `on` days never shorten the run ending at `day`. */
  lemma {:induction false} BackRunMonotone(on1: int -> bool, on2: int -> bool, s1: set<int>, s2: set<int>, day: int)
    requires forall d :: on1(d) ==> d in s1
    requires forall d :: on2(d) ==> d in s2
    requires forall d :: on1(d) ==> on2(d)
    ensures BackRun(on1, s1, day) <= BackRun(on2, s2, day)
  {
  }

  /** Changing `on` only outside `[day - n, day]`, the days the walk of
      length `n` looks at, does not change the run. */
  lemma BackRunLocal(on1: int -> bool, on2: int -> bool, s1: set<int>, s2: set<int>, day: int)
    requires forall d :: on1(d) ==> d in s1
    requires forall d :: on2(d) ==> d in s2
    requires forall d :: day - BackRun(on1, s1, day) <= d <= day ==> (on1(d) <==> on2(d))
    ensures BackRun(on1, s1, day) == BackRun(on2, s2, day)
  {
    var n := BackRun(on1, s1, day);
    assert IsRunBack(on2, day, n);
    RunBackUnique(on2, day, n, BackRun(on2, s2, day));
  }
}

=== FILE: habits.dfy ===
/** The habit tracker: named habits with one check mark per day, edited
    through the Monday-to-Sunday week that is on screen, and the streak of
    checked days ending today. */
module Habits {

  import opened Util
  import Seqs
  import opened Days

  /** `checks` maps a day to its tick; a day without an entry reads as
      unticked. */
  datatype Habit = Habit(id: string, name: string, checks: map<int, bool>)

  predicate Checked(h: Habit, d: int) {
    d in h.checks && h.checks[d]
  }

  /** `addHabit`: the name is trimmed; an empty name adds nothing, any other
      appends a new habit with no ticks under the caller's fresh `id`. */
  function AddHabit(hs: seq<Habit>, id: string, name: string): (r: seq<Habit>)
    ensures Trim(name) == [] ==> r == hs
    ensures Trim(name) != [] ==> |r| == |hs| + 1 && r[..|hs|] == hs
    ensures Trim(name) != [] ==> r[|hs|] == Habit(id, Trim(name), map[])
    ensures Trim(name) != [] ==> forall d :: !Checked(r[|hs|], d)
  {
    var v := Trim(name);
    if v == [] then hs
    else
      var r := hs + [Habit(id, v, map[])];
      assert r[..|hs|] == hs;
      r
  }

  /** The days of the week on screen, Monday first. */
  function WeekDays(ref: int): (days: seq<int>)
    ensures |days| == 7
    ensures forall i :: 0 <= i < 7 ==> WeekdayOf(days[i]) == WeekOrder[i]
    ensures forall i :: 0 <= i < 7 ==> StartOfWeek(days[i]) == StartOfWeek(ref)
    ensures forall i, j :: 0 <= i < j < 7 ==> days[i] < days[j]
  {
    var s := StartOfWeek(ref);
    var days := seq(7, i requires 0 <= i < 7 => s + i);
    forall i | 0 <= i < 7 ensures WeekdayOf(days[i]) == WeekOrder[i] && StartOfWeek(days[i]) == s {
      WeekDayInOrder(ref, i);
    }
    days
  }

  /** `g` is `h` with the tick of day `key` flipped and nothing else
      changed. */
  ghost predicate FlippedAt(h: Habit, g: Habit, key: int) {
    && g.id == h.id && g.name == h.name
    && Checked(g, key) == !Checked(h, key)
    && forall d :: d != key ==> Checked(g, d) == Checked(h, d)
  }

  function FlipDay(h: Habit, key: int): (g: Habit)
    ensures FlippedAt(h, g, key)
  {
    h.(checks := h.checks[key := !Checked(h, key)])
  }

  /** `toggleHabit`: flips the tick of day `dayIdx` of the week on screen
      for the habit `id`; every other habit and day is left alone. */
  function ToggleHabit(hs: seq<Habit>, id: string, ref: int, dayIdx: int): (r: seq<Habit>)
    requires 0 <= dayIdx < 7
    ensures |r| == |hs|
    ensures forall i :: 0 <= i < |hs| && hs[i].id != id ==> r[i] == hs[i]
    ensures forall i :: 0 <= i < |hs| && hs[i].id == id ==> FlippedAt(hs[i], r[i], WeekDays(ref)[dayIdx])
  {
    var key := WeekDays(ref)[dayIdx];
    ToggleAt(hs, id, key)
  }

  /** Flips day `key` of every habit named by `id`. */
  function ToggleAt(hs: seq<Habit>, id: string, key: int): (r: seq<Habit>)
    ensures |r| == |hs|
    ensures forall i :: 0 <= i < |hs| && hs[i].id != id ==> r[i] == hs[i]
    ensures forall i :: 0 <= i < |hs| && hs[i].id == id ==> FlippedAt(hs[i], r[i], key)
  {
    if |hs| == 0 then []
    else
      var rest := ToggleAt(hs[1..], id, key);
      var r := [if hs[0].id != id then hs[0] else FlipDay(hs[0], key)] + rest;
      assert forall i :: 1 <= i < |hs| ==> r[i] == rest[i - 1] && hs[i] == hs[1..][i - 1];
      r
  }

  /** Two flips of the same day read as none. */
  lemma FlipTwice(a: Habit, b: Habit, c: Habit, key: int)
    requires FlippedAt(a, b, key) && FlippedAt(b, c, key)
    ensures c.id == a.id && c.name == a.name
    ensures forall d :: Checked(c, d) == Checked(a, d)
  {
  }

  /** Ticking the same cell twice reads the same as never ticking it. */
  lemma ToggleTwiceRestores(hs: seq<Habit>, id: string, ref: int, dayIdx: int)
    requires 0 <= dayIdx < 7
    ensures var r := ToggleHabit(ToggleHabit(hs, id, ref, dayIdx), id, ref, dayIdx);
      |r| == |hs| &&
      forall i :: 0 <= i < |hs| ==> r[i].id == hs[i].id && r[i].name == hs[i].name && forall d :: Checked(r[i], d) == Checked(hs[i], d)
  {
    var mid := ToggleHabit(hs, id, ref, dayIdx);
    var r := ToggleHabit(mid, id, ref, dayIdx);
    forall i | 0 <= i < |hs|
      ensures r[i].id == hs[i].id && r[i].name == hs[i].name && forall d :: Checked(r[i], d) == Checked(hs[i], d)
    {
      if hs[i].id == id {
        FlipTwice(hs[i], mid[i], r[i], WeekDays(ref)[dayIdx]);
      }
    }
  }

  /** The habits `deleteHabitFn` keeps. */
  function OtherHabit(id: string): Habit -> bool {
    (h: Habit) => h.id != id
  }

  /** `deleteHabitFn`: drops the habits with that id and keeps the others,
      in order, as often as they occur. */
  function DeleteHabit(hs: seq<Habit>, id: string): (r: seq<Habit>)
    ensures forall i :: 0 <= i < |r| ==> r[i].id != id && r[i] in hs
    ensures forall i :: 0 <= i < |hs| && hs[i].id != id ==> hs[i] in r
    ensures forall h :: multiset(r)[h] == (if h.id != id then multiset(hs)[h] else 0)
  {
    var r := Seqs.Filter(hs, OtherHabit(id));
    assert forall h :: multiset(r)[h] == (if h.id != id then multiset(hs)[h] else 0) by {
      forall h ensures multiset(r)[h] == (if h.id != id then multiset(hs)[h] else 0) {
        Seqs.FilterMultiplicity(hs, OtherHabit(id), h);
      }
    }
    r
  }

  /** Deleting from a concatenation deletes from each part and keeps them
      in order; a single habit stays exactly when its id differs. */
  lemma DeleteHabitKeepsOrder(a: seq<Habit>, b: seq<Habit>, id: string)
    ensures DeleteHabit(a + b, id) == DeleteHabit(a, id) + DeleteHabit(b, id)
    ensures |a| == 1 ==> DeleteHabit(a, id) == (if a[0].id != id then a else [])
  {
    Seqs.FilterAppend(a, b, OtherHabit(id));
  }

  /** Deleting a habit just added under a fresh id gives back the list. */
  lemma DeleteUndoesAdd(hs: seq<Habit>, id: string, name: string)
    requires forall i :: 0 <= i < |hs| ==> hs[i].id != id
    ensures DeleteHabit(AddHabit(hs, id, name), id) == hs
  {
    var keep := OtherHabit(id);
    if Trim(name) != [] {
      Seqs.FilterAppendRejected(hs, Habit(id, Trim(name), map[]), keep);
    } else {
      assert Seqs.Filter(hs, keep) == hs;
    }
  }

  /** `renameHabit`: gives the habit `id` the name as passed (the card
      trims it first); ticks and other habits are untouched. */
  function RenameHabit(hs: seq<Habit>, id: string, name: string): (r: seq<Habit>)
    ensures |r| == |hs|
    ensures forall i :: 0 <= i < |hs| ==> r[i].id == hs[i].id && r[i].checks == hs[i].checks
    ensures forall i :: 0 <= i < |hs| ==> r[i].name == (if hs[i].id == id then name else hs[i].name)
  {
    seq(|hs|, i requires 0 <= i < |hs| => if hs[i].id == id then hs[i].(name := name) else hs[i])
  }

  /** `habitStreak`: the number of consecutive ticked days ending today. */
  function HabitStreak(h: Habit, today: int): (n: nat)
    ensures forall d :: today - n < d <= today ==> Checked(h, d)
    ensures !Checked(h, today - n)
  {
    var on := (d: int) => Checked(h, d);
    var n := BackRun(on, h.checks.Keys, today);
    assert IsRunBack(on, today, n);
    assert forall d :: today - n < d <= today ==> Checked(h, d) by {
      forall d | today - n < d <= today ensures Checked(h, d) {
        assert on(d);
      }
    }
    assert !on(today - n);
    n
  }

  /** The streak is the unique backward run: any `n` with the two
      properties above is it. */
  lemma HabitStreakUnique(h: Habit, today: int, n: nat)
    requires forall d :: today - n < d <= today ==> Checked(h, d)
    requires !Checked(h, today - n)
    ensures HabitStreak(h, today) == n
  {
  }

  /** Ticks on today and the two days before, and none the day before
      those, make a streak of three. */
  lemma ThreeDayStreak(h: Habit, today: int)
    requires Checked(h, today) && Checked(h, today - 1) && Checked(h, today - 2)
    requires !Checked(h, today - 3)
    ensures HabitStreak(h, today) == 3
  {
    HabitStreakUnique(h, today, 3);
  }

  /** Ticking today extends the run that ended yesterday by one; unticking
      today ends the streak. */
  lemma ToggleTodayStreak(h: Habit, today: int)
    ensures !Checked(h, today) ==> HabitStreak(FlipDay(h, today), today) == 1 + HabitStreak(h, today - 1)
    ensures Checked(h, today) ==> HabitStreak(FlipDay(h, today), today) == 0
  {
    var g := FlipDay(h, today);
    if !Checked(h, today) {
      var n := HabitStreak(h, today - 1);
      HabitStreakUnique(g, today, 1 + n);
    } else {
      HabitStreakUnique(g, today, 0);
    }
  }
}

=== FILE: level.dfy ===
/** The level card: cumulative study time climbs a ladder of twelve
    segments, Bronze III up to Diamond I, and the card shows the current
    segment, the percentage of it already done and the minutes left to the
    next one. */
module Level {

  import opened Util

  datatype Tier = Bronze | Silver | Gold | Diamond
  datatype Rank = III | II | I

  datatype Segment = Segment(tier: Tier, rank: Rank, durMin: int)

  /** Each tier contributes ranks III, II and I of the same length: two,
      three, four and six hours. */
  const Ladder: seq<Segment> := [
    Segment(Bronze, III, 120), Segment(Bronze, II, 120), Segment(Bronze, I, 120),
    Segment(Silver, III, 180), Segment(Silver, II, 180), Segment(Silver, I, 180),
    Segment(Gold, III, 240), Segment(Gold, II, 240), Segment(Gold, I, 240),
    Segment(Diamond, III, 360), Segment(Diamond, II, 360), Segment(Diamond, I, 360)
  ]

  const LadderTotal: int := 2700

  /** Minutes needed to reach the start of segment `i`. */
  function CumStart(i: nat): int
    requires i <= |Ladder|
  {
    if i == 0 then 0 else CumStart(i - 1) + Ladder[i - 1].durMin
  }

  lemma LadderTotalIsSum()
    ensures CumStart(|Ladder|) == LadderTotal
  {
    assert CumStart(1) == 120;
    assert CumStart(2) == 240;
    assert CumStart(3) == 360;
    assert CumStart(4) == 540;
    assert CumStart(5) == 720;
    assert CumStart(6) == 900;
    assert CumStart(7) == 1140;
    assert CumStart(8) == 1380;
    assert CumStart(9) == 1620;
    assert CumStart(10) == 1980;
    assert CumStart(11) == 2340;
  }

  /** Segments have positive length, so their start points increase. */
  lemma {:induction false} CumStartIncreasing(i: nat, j: nat)
    requires i < j <= |Ladder|
    ensures CumStart(i) < CumStart(j)
  {
    if i < j - 1 {
      CumStartIncreasing(i, j - 1);
    }
  }

  /** Segment `i` is the one that holds `t` minutes: `t` is below its end
      and, for every segment but the first, at or past its start. */
  predicate Holds(i: int, t: int) {
    0 <= i < |Ladder| && (i == 0 || CumStart(i) <= t) && t < CumStart(i + 1)
  }

  /** Below the top there is exactly one segment holding a time. */
  lemma HoldsUnique(i: int, j: int, t: int)
    requires Holds(i, t) && Holds(j, t)
    ensures i == j
  {
    if i < j {
      CumStartIncreasing(i + 1, j + 1);
      if i + 1 < j { CumStartIncreasing(i + 1, j); }
    } else if j < i {
      if j + 1 < i { CumStartIncreasing(j + 1, i); }
    }
  }

  /** The search loop of the level card from segment `i`, with `cum` the
      minutes before it. */
  function FindSegment(t: int, i: nat, cum: int): (idx: nat)
    requires i < |Ladder| && cum == CumStart(i)
    requires i == 0 || cum <= t
    requires t < LadderTotal
    ensures Holds(idx, t)
    decreases |Ladder| - i
  {
    LadderTotalIsSum();
    if t < cum + Ladder[i].durMin then i
    else FindSegment(t, i + 1, cum + Ladder[i].durMin)
  }

  datatype Next = ToNext(minutes: int) | MaxReached

  datatype Progress = Progress(index: int, segment: Segment, pct: int, next: Next)

  /** `LevelCard`: the segment holding `t` minutes, the rounded percentage
      of it completed, and the minutes to the next segment; at or past the
      top of the ladder, Diamond I at 100% with nothing left to reach. */
  function LevelProgress(t: int): (p: Progress)
    ensures 0 <= p.index < |Ladder| && p.segment == Ladder[p.index]
    ensures 0 <= p.pct <= 100
    ensures t >= LadderTotal ==> p.segment == Segment(Diamond, I, 360) && p.pct == 100 && p.next == MaxReached
    ensures t < LadderTotal ==> Holds(p.index, t)
    ensures t < LadderTotal ==> p.next == ToNext(CumStart(p.index + 1) - t) && CumStart(p.index + 1) - t > 0
    ensures t < LadderTotal ==> p.pct == RoundDiv(100 * Max(0, t - CumStart(p.index)), p.segment.durMin)
    ensures t <= 0 ==> p.index == 0 && p.pct == 0
  {
    var last := |Ladder| - 1;
    if t >= LadderTotal then
      Progress(last, Ladder[last], 100, MaxReached)
    else
      var idx := FindSegment(t, 0, 0);
      var start := CumStart(idx);
      var span := Ladder[idx].durMin;
      var done := Min(span, Max(0, t - start));
      RoundDivBetween(100 * done, span, 0, 100);
      Progress(idx, Ladder[idx], RoundDiv(100 * done, span), ToNext(Max(0, span - (t - start))))
  }

  /** More study time never moves the level down, and within one segment
      never lowers the percentage. */
  lemma LevelMonotone(t1: int, t2: int)
    requires t1 <= t2
    ensures LevelProgress(t1).index <= LevelProgress(t2).index
    ensures LevelProgress(t1).index == LevelProgress(t2).index ==> LevelProgress(t1).pct <= LevelProgress(t2).pct
  {
    var p1, p2 := LevelProgress(t1), LevelProgress(t2);
    if t2 < LadderTotal {
      if p1.index > p2.index {
        if p2.index + 1 < p1.index {
          CumStartIncreasing(p2.index + 1, p1.index);
        }
      } else if p1.index == p2.index {
        var start := CumStart(p1.index);
        RoundDivMonotone(100 * Max(0, t1 - start), 100 * Max(0, t2 - start), p1.segment.durMin);
      }
    }
  }
}

=== FILE: pomodoro.dfy ===
/** The pomodoro timer: a one-second countdown through focus, short-break
    and long-break phases that reports each completed focus phase to the
    session log. Every user action and every timer tick is an event; after
    each event the component's "idle" effect runs when its inputs changed,
    and the model applies it as a separate step. */
module Pomodoro {

  import opened Util

  datatype Phase = Focus | Short | Long
  datatype Mode = Idle | Running | Paused

  /** The three durations, in minutes. */
  datatype Durations = Durations(focus: int, short: int, long: int)

  /** `armed` holds the durations the running interval's callback captured
      when the countdown was (re)started. */
  datatype Pomodoro = Pomodoro(
    durations: Durations,
    completed: int,
    phase: Phase,
    mode: Mode,
    remainingSec: int,
    armed: Durations)

  const Defaults: Durations := Durations(25, 5, 15)

  /** The state after mounting, once the idle effect has run. */
  const Initial: Pomodoro := Pomodoro(Defaults, 0, Focus, Idle, 25 * 60, Defaults)

  datatype Kind = FocusKind | ShortKind | LongKind

  datatype Event =
    | Start | Pause | Resume | Reset | Skip
    | Tick
    | SetDuration(kind: Kind, value: int)

  /** A completed focus phase as handed to the session log. */
  datatype Completion = Completion(minutes: int, caption: string)

  // ---------------------------------------------------------------------
  // The caption `Pomodoro ${focusMin}m`

  function DigitChar(d: int): (c: char)
    requires 0 <= d < 10
    ensures '0' <= c <= '9' && c as int - '0' as int == d
  {
    ('0' as int + d) as char
  }

  /** The decimal numeral of a natural number, as template literals print
      it: no leading zeros. */
  function Decimal(n: nat): (s: string)
    ensures |s| >= 1
    ensures forall i :: 0 <= i < |s| ==> '0' <= s[i] <= '9'
    ensures n > 0 ==> s[0] != '0'
  {
    if n < 10 then [DigitChar(n)] else Decimal(n / 10) + [DigitChar(n % 10)]
  }

  /** The value a string of decimal digits denotes. */
  function DigitsValue(s: string): int {
    if |s| == 0 then 0 else 10 * DigitsValue(s[..|s| - 1]) + (s[|s| - 1] as int - '0' as int)
  }

  /** Reading the numeral back gives the number. */
  lemma {:induction false} DecimalRoundTrip(n: nat)
    ensures DigitsValue(Decimal(n)) == n
  {
    var s := Decimal(n);
    if n >= 10 {
      DecimalRoundTrip(n / 10);
      assert s[..|s| - 1] == Decimal(n / 10);
    } else {
      assert s[..0] == [];
    }
  }

  /** The caption of a completed focus phase; durations are at least 1. */
  function Caption(focusMin: nat): (c: string)
    ensures |c| >= 11 && c[..9] == "Pomodoro " && c[|c| - 1] == 'm'
    ensures DigitsValue(c[9..|c| - 1]) == focusMin
  {
    var c := "Pomodoro " + Decimal(focusMin) + "m";
    assert c[9..|c| - 1] == Decimal(focusMin);
    DecimalRoundTrip(focusMin);
    c
  }

  // ---------------------------------------------------------------------
  // Events

  /** The highest value the wheel picker offers for each duration; the
      lowest is 1. */
  function MaxFor(k: Kind): int {
    match k
    case FocusKind => 180
    case ShortKind => 60
    case LongKind => 120
  }

  /** Whether an event's button or source exists in the current mode: Start
      only when idle, Pause while running, Resume while paused, Skip and
      Reset while running or paused, ticks only while the interval runs,
      and the picker at any time within its range. */
  predicate Enabled(p: Pomodoro, e: Event) {
    match e
    case Start => p.mode == Idle
    case Pause => p.mode == Running
    case Resume => p.mode == Paused
    case Reset => p.mode != Idle
    case Skip => p.mode != Idle
    case Tick => p.mode == Running
    case SetDuration(k, v) => 1 <= v <= MaxFor(k)
  }

  /** The minutes a phase lasts under the given durations. */
  function PhaseMinutes(d: Durations, ph: Phase): int {
    match ph
    case Focus => d.focus
    case Short => d.short
    case Long => d.long
  }

  /** One second of the running countdown. Above one second left it counts
      down; at the last second the phase ends: a focus phase is reported
      with the captured focus length and the count of completed phases
      grows, choosing a long break after every fourth and a short one
      otherwise; a break leads back to focus. The countdown stops either
      way. */
  function Expire(p: Pomodoro): (res: (Pomodoro, Option<Completion>))
    requires p.mode == Running && p.armed.focus >= 0
    ensures p.remainingSec - 1 > 0 ==> res == (p.(remainingSec := p.remainingSec - 1), None)
    ensures p.remainingSec - 1 <= 0 ==> res.0.mode == Idle && res.0.durations == p.durations
    ensures p.remainingSec - 1 <= 0 && p.phase == Focus ==>
      && res.1 == Some(Completion(p.armed.focus, Caption(p.armed.focus)))
      && res.0.completed == p.completed + 1
      && (res.0.completed % 4 == 0 <==> res.0.phase == Long)
      && (res.0.completed % 4 != 0 <==> res.0.phase == Short)
      && res.0.remainingSec == 60 * PhaseMinutes(p.armed, res.0.phase)
    ensures p.remainingSec - 1 <= 0 && p.phase != Focus ==>
      res.1 == None && res.0.completed == p.completed &&
      res.0.phase == Focus && res.0.remainingSec == 60 * p.armed.focus
  {
    var next := p.remainingSec - 1;
    if next > 0 then (p.(remainingSec := next), None)
    else if p.phase == Focus then
      var n := p.completed + 1;
      var ph := if n % 4 == 0 then Long else Short;
      (p.(completed := n, phase := ph, remainingSec := 60 * PhaseMinutes(p.armed, ph), mode := Idle),
       Some(Completion(p.armed.focus, Caption(p.armed.focus))))
    else
      (p.(phase := Focus, remainingSec := 60 * p.armed.focus, mode := Idle), None)
  }

  /** The handler of one event, before the idle effect runs. A disabled
      event changes nothing. */
  function Handle(p: Pomodoro, e: Event): (res: (Pomodoro, Option<Completion>))
    requires p.armed.focus >= 0
    ensures !Enabled(p, e) ==> res == (p, None)
    ensures res.1.Some? ==> e == Tick && p.phase == Focus && res.0.completed == p.completed + 1
    ensures e != Reset && res.1.None? ==> res.0.completed == p.completed
    ensures Enabled(p, e) && (e == Start || e == Resume) ==> res == (p.(mode := Running, armed := p.durations), None)
    ensures Enabled(p, e) && e == Pause ==> res.0 == p.(mode := Paused)
    ensures Enabled(p, e) && e == Reset ==>
      res.0.mode == Idle && res.0.phase == Focus && res.0.completed == 0 && res.0.remainingSec == 60 * p.durations.focus
    ensures Enabled(p, e) && e == Skip ==>
      && res.0.mode == Idle && res.1.None?
      && (p.phase == Focus ==> res.0.phase == Short && res.0.remainingSec == 60 * p.durations.short)
      && (p.phase != Focus ==> res.0.phase == Focus && res.0.remainingSec == 60 * p.durations.focus)
  {
    if !Enabled(p, e) then (p, None)
    else
      match e
      case Start => (p.(mode := Running, armed := p.durations), None)
      case Resume => (p.(mode := Running, armed := p.durations), None)
      case Pause => (p.(mode := Paused), None)
      case Reset =>
        (p.(mode := Idle, phase := Focus, remainingSec := 60 * p.durations.focus, completed := 0), None)
      case Skip =>
        if p.phase == Focus then (p.(mode := Idle, phase := Short, remainingSec := 60 * p.durations.short), None)
        else (p.(mode := Idle, phase := Focus, remainingSec := 60 * p.durations.focus), None)
      case Tick => Expire(p)
      case SetDuration(k, v) => (SetDurationHandler(p, k, v), None)
  }

  /** The picker's save handler: stores the duration and, when idle in the
      phase it belongs to, restarts that phase's countdown. */
  function SetDurationHandler(p: Pomodoro, k: Kind, v: int): (r: Pomodoro)
    ensures r.mode == p.mode && r.phase == p.phase && r.completed == p.completed && r.armed == p.armed
    ensures r.durations == (match k
      case FocusKind => p.durations.(focus := v)
      case ShortKind => p.durations.(short := v)
      case LongKind => p.durations.(long := v))
    ensures p.mode == Idle && PhaseKind(p.phase) == k ==> r.remainingSec == 60 * v
    ensures !(p.mode == Idle && PhaseKind(p.phase) == k) ==> r.remainingSec == p.remainingSec
  {
    var d := match k
      case FocusKind => p.durations.(focus := v)
      case ShortKind => p.durations.(short := v)
      case LongKind => p.durations.(long := v);
    var q := p.(durations := d);
    if p.mode == Idle && PhaseKind(p.phase) == k then q.(remainingSec := 60 * v) else q
  }

  function PhaseKind(ph: Phase): Kind {
    match ph
    case Focus => FocusKind
    case Short => ShortKind
    case Long => LongKind
  }

  /** The idle effect as written: whenever the timer is idle (and the focus
      length or the mode just changed) the phase is forced back to focus
      with a full focus countdown. */
  function SettleIdle(before: Pomodoro, after: Pomodoro): (r: Pomodoro)
    ensures r.mode == after.mode && r.completed == after.completed
    ensures r.durations == after.durations && r.armed == after.armed
    ensures after.mode == Idle && before.mode != Idle ==> r.phase == Focus && r.remainingSec == 60 * after.durations.focus
    ensures after.mode == Idle && before.durations.focus != after.durations.focus ==>
      r.phase == Focus && r.remainingSec == 60 * after.durations.focus
    ensures after.mode != Idle || (before.mode == Idle && before.durations.focus == after.durations.focus) ==> r == after
  {
    if after.mode == Idle && (before.mode != Idle || before.durations.focus != after.durations.focus) then
      after.(phase := Focus, remainingSec := 60 * after.durations.focus)
    else after
  }

  /** The idle effect as evidently intended: it keeps an idle focus
      countdown in step with the focus length and leaves a pending break
      alone. */
  function SettleIdleIntended(before: Pomodoro, after: Pomodoro): (r: Pomodoro)
    ensures r.phase == after.phase && r.mode == after.mode && r.completed == after.completed
    ensures after.phase != Focus ==> r == after
    ensures after.mode == Idle && after.phase == Focus && (before.mode != Idle || before.durations.focus != after.durations.focus) ==>
      r.remainingSec == 60 * after.durations.focus
  {
    if after.mode == Idle && after.phase == Focus && (before.mode != Idle || before.durations.focus != after.durations.focus) then
      after.(remainingSec := 60 * after.durations.focus)
    else after
  }

  /** One event as the component processes it: the handler, then the idle
      effect. */
  function Dispatch(p: Pomodoro, e: Event): (res: (Pomodoro, Option<Completion>))
    requires p.armed.focus >= 0
    ensures res.1 == Handle(p, e).1
    ensures res.0.mode == Handle(p, e).0.mode && res.0.completed == Handle(p, e).0.completed
    ensures res.0.mode == Idle && Handle(p, e).0.mode == Idle && p.mode != Idle ==> res.0.phase == Focus
  {
    var (q, out) := Handle(p, e);
    (SettleIdle(p, q), out)
  }

  /** The same with the intended idle effect. */
  function DispatchIntended(p: Pomodoro, e: Event): (res: (Pomodoro, Option<Completion>))
    requires p.armed.focus >= 0
    ensures res.1 == Handle(p, e).1
    ensures res.0.mode == Handle(p, e).0.mode && res.0.completed == Handle(p, e).0.completed
    ensures res.0.phase == Handle(p, e).0.phase
  {
    var (q, out) := Handle(p, e);
    (SettleIdleIntended(p, q), out)
  }

  // ---------------------------------------------------------------------
  // Properties

  /** Durations within the picker's range, a countdown with time left, and
      a captured focus length that is a valid duration too. */
  predicate Valid(p: Pomodoro) {
    && 1 <= p.durations.focus && 1 <= p.durations.short && 1 <= p.durations.long
    && 1 <= p.armed.focus && 1 <= p.armed.short && 1 <= p.armed.long
    && p.remainingSec >= 1
    && p.completed >= 0
  }

  lemma InitialValid()
    ensures Valid(Initial)
  {
  }

  /** Every event keeps the state valid, with either idle effect. */
  lemma DispatchKeepsValid(p: Pomodoro, e: Event)
    requires Valid(p)
    ensures Valid(Dispatch(p, e).0)
    ensures Valid(DispatchIntended(p, e).0)
  {
  }

  /** One event under the idle effect as written (`intended` false) or as
      evidently intended (`intended` true). */
  function Step(p: Pomodoro, e: Event, intended: bool): (res: (Pomodoro, Option<Completion>))
    requires p.armed.focus >= 0
    ensures res.1 == Handle(p, e).1 && res.0.completed == Handle(p, e).0.completed
  {
    if intended then DispatchIntended(p, e) else Dispatch(p, e)
  }

  /** Pausing and then resuming continues the countdown where it stopped:
      the phase, the remaining seconds, the count and the durations are
      those of the running timer. */
  lemma PauseResumeContinues(p: Pomodoro, intended: bool)
    requires p.mode == Running && p.armed.focus >= 0
    ensures Step(p, Pause, intended).0.armed.focus >= 0
    ensures var q := Step(Step(p, Pause, intended).0, Resume, intended).0;
      && q.mode == Running && q.phase == p.phase && q.remainingSec == p.remainingSec
      && q.completed == p.completed && q.durations == p.durations && q.armed == p.durations
  {
  }

  /** A sequence of events, with the completions they report in order. */
  function Run(p: Pomodoro, es: seq<Event>, intended: bool): (res: (Pomodoro, seq<Completion>))
    requires Valid(p)
    ensures Valid(res.0)
    decreases |es|
  {
    if |es| == 0 then (p, [])
    else
      DispatchKeepsValid(p, es[0]);
      var (q, out) := Step(p, es[0], intended);
      var (r, outs) := Run(q, es[1..], intended);
      (r, (if out.Some? then [out.value] else []) + outs)
  }

  /** Without a reset, the completed counter grows by exactly the number of
      focus phases reported to the session log, under either idle effect. */
  lemma {:induction false} CompletionsMatchCounter(p: Pomodoro, es: seq<Event>, intended: bool)
    requires Valid(p)
    requires forall i :: 0 <= i < |es| ==> es[i] != Reset
    ensures Run(p, es, intended).0.completed == p.completed + |Run(p, es, intended).1|
    decreases |es|
  {
    if |es| > 0 {
      DispatchKeepsValid(p, es[0]);
      var q := Step(p, es[0], intended).0;
      CompletionsMatchCounter(q, es[1..], intended);
    }
  }

  /** Every reported completion carries a valid focus length and its
      caption. */
  lemma {:induction false} CompletionsAreFocusPhases(p: Pomodoro, es: seq<Event>, intended: bool)
    requires Valid(p)
    ensures forall i :: 0 <= i < |Run(p, es, intended).1| ==>
      Run(p, es, intended).1[i].minutes >= 1 && Run(p, es, intended).1[i].caption == Caption(Run(p, es, intended).1[i].minutes)
    decreases |es|
  {
    if |es| > 0 {
      DispatchKeepsValid(p, es[0]);
      var q := Step(p, es[0], intended).0;
      CompletionsAreFocusPhases(q, es[1..], intended);
    }
  }

  /** As written, whenever an event leaves the timer idle, the phase is
      focus: the break the timer just chose, or the one Skip moved to, is
      overwritten, so no break phase is ever counted down. */
  lemma IdleIsAlwaysFocus(p: Pomodoro, e: Event)
    requires Valid(p) && p.mode != Idle
    requires Dispatch(p, e).0.mode == Idle
    ensures Dispatch(p, e).0.phase == Focus
    ensures Dispatch(p, e).0.remainingSec == 60 * p.durations.focus
  {
  }

  /** Concretely: the last second of the first focus phase ends in an idle
      focus phase of full length instead of a five-minute short break. */
  lemma FocusEndSkipsBreak()
    ensures var p := Initial.(mode := Running, remainingSec := 1);
      var (q, out) := Dispatch(p, Tick);
      out == Some(Completion(25, Caption(25))) && q.completed == 1 &&
      q.phase == Focus && q.remainingSec == 1500 && q.mode == Idle
  {
  }

  /** With the intended effect, a focus phase ends in a short break, or a
      long one after every fourth, counting down the captured break length;
      a break ends in a full focus phase of the current focus length. */
  lemma IntendedReachesBreaks(p: Pomodoro)
    requires Valid(p) && p.mode == Running && p.remainingSec == 1
    ensures var (q, out) := DispatchIntended(p, Tick);
      && q.mode == Idle
      && (p.phase == Focus ==>
           && out == Some(Completion(p.armed.focus, Caption(p.armed.focus)))
           && (q.phase == Long <==> (p.completed + 1) % 4 == 0)
           && (q.phase == Short <==> (p.completed + 1) % 4 != 0)
           && q.remainingSec == 60 * PhaseMinutes(p.armed, q.phase))
      && (p.phase != Focus ==> out == None && q.phase == Focus && q.remainingSec == 60 * p.durations.focus)
  {
  }

  /** Concretely, with the intended effect the first focus phase ends in a
      five-minute short break. */
  lemma IntendedFocusEndStartsShortBreak()
    ensures var p := Initial.(mode := Running, remainingSec := 1);
      var (q, out) := DispatchIntended(p, Tick);
      out == Some(Completion(25, Caption(25))) && q.phase == Short && q.remainingSec == 300
  {
  }
}

=== FILE: projects.dfy ===
/** The project list and the active project: adding a project by
    name and deleting one, optionally together with its sessions. */
module Projects {

  import opened Util
  import Seqs
  import opened Sessions

  /** The name used when no project is left. */
  const DefaultProject: string := "Psychologie"

  /** The app state these operations touch. */
  datatype Store = Store(sessions: seq<Session>, projects: seq<string>, active: string)

  /** The active project names an existing project, or the default when the
      list is empty. */
  predicate ActiveValid(st: Store) {
    st.active in st.projects || (st.projects == [] && st.active == DefaultProject)
  }

  /** The add-project handler of the project picker: the name is trimmed,
      an empty name is ignored, a new name is appended, and the (new or
      existing) project becomes active. */
  function AddProject(st: Store, name: string): (r: Store)
    ensures Trim(name) == [] ==> r == st
    ensures Trim(name) != [] ==> r.active == Trim(name) && Trim(name) in r.projects
    ensures Trim(name) != [] ==> ActiveValid(r)
    ensures |st.projects| <= |r.projects| <= |st.projects| + 1
    ensures r.projects[..|st.projects|] == st.projects
    ensures Trim(name) in st.projects ==> r.projects == st.projects
    ensures Trim(name) != [] && Trim(name) !in st.projects ==> r.projects == st.projects + [Trim(name)]
    ensures Seqs.NoDuplicates(st.projects) ==> Seqs.NoDuplicates(r.projects)
    ensures r.sessions == st.sessions
  {
    var v := Trim(name);
    if v == [] then st
    else if v in st.projects then st.(active := v)
    else
      var ps := st.projects + [v];
      assert ps[..|st.projects|] == st.projects;
      assert Seqs.NoDuplicates(st.projects) ==> Seqs.NoDuplicates(ps) by {
        if Seqs.NoDuplicates(st.projects) {
          forall i, j | 0 <= i < j < |ps| ensures ps[i] != ps[j] {
            if j == |st.projects| {
              assert ps[i] == st.projects[i];
            }
          }
        }
      }
      st.(projects := ps, active := v)
  }

  /** The projects `handleDeleteProject` keeps. */
  function OtherName(name: string): string -> bool {
    (p: string) => p != name
  }

  /** The sessions kept when a project's sessions are deleted with it. */
  function OutsideProject(name: string): Session -> bool {
    (s: Session) => s.project != name
  }

  /** Entry `i` is the first entry of `ps` that differs from `name`. */
  predicate FirstOther(ps: seq<string>, name: string, i: int) {
    0 <= i < |ps| && ps[i] != name && forall j :: 0 <= j < i ==> ps[j] == name
  }

  /** The list `prev.filter(p => p !== name)`: the other projects in their
      order and multiplicity, the first of them being the first entry that
      differs from `name`. */
  function RemainingProjects(ps: seq<string>, name: string): (next: seq<string>)
    ensures next == Seqs.Filter(ps, OtherName(name))
    ensures forall p :: multiset(next)[p] == (if p != name then multiset(ps)[p] else 0)
    ensures name !in next
    ensures forall i :: 0 <= i < |ps| && ps[i] != name ==> ps[i] in next
    ensures forall i :: 0 <= i < |next| ==> next[i] in ps
    ensures forall i :: FirstOther(ps, name, i) ==> |next| > 0 && next[0] == ps[i]
    ensures (forall i :: 0 <= i < |ps| ==> ps[i] == name) ==> next == []
  {
    var keep := OtherName(name);
    var next := Seqs.Filter(ps, keep);
    assert forall i :: FirstOther(ps, name, i) ==> |next| > 0 && next[0] == ps[i] by {
      forall i | FirstOther(ps, name, i)
        ensures |next| > 0 && next[0] == ps[i]
      {
        Seqs.FilterFirst(ps, keep, i);
      }
    }
    assert (forall i :: 0 <= i < |ps| ==> ps[i] == name) ==> next == [] by {
      if forall i :: 0 <= i < |ps| ==> ps[i] == name {
        Seqs.FilterAllRejected(ps, keep);
      }
    }
    assert forall p :: multiset(next)[p] == (if p != name then multiset(ps)[p] else 0) by {
      forall p ensures multiset(next)[p] == (if p != name then multiset(ps)[p] else 0) {
        Seqs.FilterMultiplicity(ps, keep, p);
      }
    }
    next
  }

  /** The project that becomes active when the active one, `name`, is
      deleted: the first remaining entry, or the default when there is
      none or it is the empty string. */
  function FallbackActive(ps: seq<string>, name: string): (a: string)
    ensures forall i :: FirstOther(ps, name, i) ==>
      a == (if ps[i] != [] then ps[i] else DefaultProject)
    ensures (forall i :: 0 <= i < |ps| ==> ps[i] == name) ==> a == DefaultProject
    ensures a == DefaultProject || (a in ps && a != name)
  {
    var next := RemainingProjects(ps, name);
    if |next| > 0 && next[0] != [] then next[0] else DefaultProject
  }

  /** The log `prev.filter(s => s.project !== name)`. */
  function SessionsOutside(ss: seq<Session>, name: string): (r: seq<Session>)
    ensures r == Seqs.Filter(ss, OutsideProject(name))
    ensures forall s :: multiset(r)[s] == (if s.project != name then multiset(ss)[s] else 0)
    ensures forall i :: 0 <= i < |r| ==> r[i].project != name && r[i] in ss
    ensures forall i :: 0 <= i < |ss| && ss[i].project != name ==> ss[i] in r
  {
    var r := Seqs.Filter(ss, OutsideProject(name));
    assert forall s :: multiset(r)[s] == (if s.project != name then multiset(ss)[s] else 0) by {
      forall s ensures multiset(r)[s] == (if s.project != name then multiset(ss)[s] else 0) {
        Seqs.FilterMultiplicity(ss, OutsideProject(name), s);
      }
    }
    r
  }

  /** `handleDeleteProject`. An empty name is ignored. Otherwise the name is
      removed from the list, the other projects keeping their order and
      multiplicity; if it was active, the first remaining project (unless
      that is the empty string) or the default becomes active; the
      project's sessions go only when `deleteSessions` is set. */
  function DeleteProject(st: Store, name: string, deleteSessions: bool): (r: Store)
    ensures name == [] ==> r == st
    ensures name != [] ==> name !in r.projects
    ensures name != [] ==> forall i :: 0 <= i < |st.projects| && st.projects[i] != name ==> st.projects[i] in r.projects
    ensures forall i :: 0 <= i < |r.projects| ==> r.projects[i] in st.projects
    ensures name != [] ==> r.projects == Seqs.Filter(st.projects, OtherName(name))
    ensures name != [] ==> forall p :: multiset(r.projects)[p] == (if p != name then multiset(st.projects)[p] else 0)
    ensures st.active != name ==> r.active == st.active
    ensures name != [] && st.active == name && |r.projects| > 0 && r.projects[0] != [] ==> r.active == r.projects[0]
    ensures name != [] && st.active == name && (|r.projects| == 0 || r.projects[0] == []) ==> r.active == DefaultProject
    ensures name != [] && st.active == name ==>
      forall i :: FirstOther(st.projects, name, i) ==>
        r.active == (if st.projects[i] != [] then st.projects[i] else DefaultProject)
    ensures name != [] && st.active == name && (forall i :: 0 <= i < |st.projects| ==> st.projects[i] == name) ==>
      r.active == DefaultProject
    ensures !deleteSessions ==> r.sessions == st.sessions
    ensures name != [] && deleteSessions ==> forall i :: 0 <= i < |r.sessions| ==> r.sessions[i].project != name
    ensures name != [] && deleteSessions ==> r.sessions == Seqs.Filter(st.sessions, OutsideProject(name))
    ensures name != [] && deleteSessions ==>
      forall s :: multiset(r.sessions)[s] == (if s.project != name then multiset(st.sessions)[s] else 0)
    ensures forall i :: 0 <= i < |st.sessions| && st.sessions[i].project != name ==> st.sessions[i] in r.sessions
    ensures forall i :: 0 <= i < |r.sessions| ==> r.sessions[i] in st.sessions
  {
    if name == [] then st
    else
      var next := RemainingProjects(st.projects, name);
      var active :=
        if st.active == name then FallbackActive(st.projects, name)
        else st.active;
      var sessions := if deleteSessions then SessionsOutside(st.sessions, name) else st.sessions;
      Store(sessions, next, active)
  }

  /** Deletion keeps the active project valid when no project has an empty
      name. */
  lemma DeleteProjectKeepsActiveValid(st: Store, name: string, deleteSessions: bool)
    requires ActiveValid(st)
    requires forall i :: 0 <= i < |st.projects| ==> st.projects[i] != []
    ensures ActiveValid(DeleteProject(st, name, deleteSessions))
  {
    var r := DeleteProject(st, name, deleteSessions);
    if name != [] && st.active != name && st.active in st.projects {
      var i :| 0 <= i < |st.projects| && st.projects[i] == st.active;
      assert st.active in r.projects;
    } else if name != [] && st.active == name && |r.projects| > 0 {
      assert r.projects[0] in st.projects;
    }
  }

  /** Deleting, without its sessions, a project that was just added under a
      new name gives back the original project list. */
  lemma DeleteUndoesAdd(st: Store, name: string)
    requires Trim(name) != [] && Trim(name) !in st.projects
    ensures DeleteProject(AddProject(st, name), Trim(name), false).projects == st.projects
    ensures DeleteProject(AddProject(st, name), Trim(name), false).sessions == st.sessions
  {
    var v := Trim(name);
    var added := AddProject(st, name);
    assert added.projects == st.projects + [v];
    Seqs.FilterAppendRejected(st.projects, v, OtherName(v));
  }

  /** Deleting the active first project of three activates the second. */
  lemma DeleteActiveFallsBackToNext(ss: seq<Session>)
    ensures DeleteProject(Store(ss, ["A", "B", "C"], "A"), "A", false).active == "B"
    ensures DeleteProject(Store(ss, ["A", "B", "C"], "A"), "A", false).projects == ["B", "C"]
  {
    var st := Store(ss, ["A", "B", "C"], "A");
    assert st.projects[0] == "A" && st.projects[1] == "B";
    var r := DeleteProject(st, "A", false);
    assert multiset(r.projects)["B"] == 1 && multiset(r.projects)["C"] == 1;
  }
}

=== FILE: seqs.dfy ===
/** Sequence helpers behind the store operations and the aggregates:
    `Array.prototype.filter`, counting, a numeric ascending sort and the
    first-seen de-duplication the best-streak scan performs. */
module Seqs {

  /** `xs.filter(keep)`: the elements satisfying `keep`, in their order. */
  function Filter<T(==)>(xs: seq<T>, keep: T -> bool): (r: seq<T>)
    ensures |r| <= |xs|
    ensures forall i :: 0 <= i < |r| ==> r[i] in xs && keep(r[i])
    ensures forall i :: 0 <= i < |xs| && keep(xs[i]) ==> xs[i] in r
    ensures (forall i :: 0 <= i < |xs| ==> keep(xs[i])) ==> r == xs
  {
    if |xs| == 0 then []
    else
      assert xs == [xs[0]] + xs[1..];
      var rest := Filter(xs[1..], keep);
      var r := if keep(xs[0]) then [xs[0]] + rest else rest;
      assert forall i :: 0 <= i < |xs| && keep(xs[i]) ==> xs[i] in r by {
        forall i | 0 <= i < |xs| && keep(xs[i]) ensures xs[i] in r {
          if i > 0 {
            assert xs[i] == xs[1..][i - 1];
          }
        }
      }
      r
  }

  /** Filtering removes elements and never repeats one. */
  lemma {:induction false} FilterSubMultiset<T>(xs: seq<T>, keep: T -> bool)
    ensures multiset(Filter(xs, keep)) <= multiset(xs)
  {
    if |xs| > 0 {
      FilterSubMultiset(xs[1..], keep);
      assert xs == [xs[0]] + xs[1..];
    }
  }

  /** Filtering distributes over concatenation, and a single element is
      kept or dropped on its own: together these fix the order and the
      multiplicity of what `filter` returns. */
  lemma {:induction false} FilterAppend<T>(xs: seq<T>, ys: seq<T>, keep: T -> bool)
    ensures Filter(xs + ys, keep) == Filter(xs, keep) + Filter(ys, keep)
    ensures |xs| == 1 ==> Filter(xs, keep) == (if keep(xs[0]) then xs else [])
  {
    if |xs| > 0 {
      assert (xs + ys)[1..] == xs[1..] + ys;
      FilterAppend(xs[1..], ys, keep);
    } else {
      assert xs + ys == ys;
    }
    if |xs| == 1 {
      assert xs[1..] == [];
    }
  }

  /** Each value occurs in the result as often as in the input when kept,
      and not at all when dropped. */
  lemma {:induction false} FilterMultiplicity<T>(xs: seq<T>, keep: T -> bool, x: T)
    ensures multiset(Filter(xs, keep))[x] == (if keep(x) then multiset(xs)[x] else 0)
  {
    if |xs| > 0 {
      assert xs == [xs[0]] + xs[1..];
      FilterMultiplicity(xs[1..], keep, x);
    }
  }

  /** The first element of the result is the first kept element of the
      input. */
  lemma {:induction false} FilterFirst<T>(xs: seq<T>, keep: T -> bool, i: nat)
    requires i < |xs| && keep(xs[i])
    requires forall j :: 0 <= j < i ==> !keep(xs[j])
    ensures |Filter(xs, keep)| > 0 && Filter(xs, keep)[0] == xs[i]
  {
    if i > 0 {
      forall j | 0 <= j < i - 1 ensures !keep(xs[1..][j]) {
        assert xs[1..][j] == xs[j + 1];
      }
      FilterFirst(xs[1..], keep, i - 1);
    }
  }

  /** When nothing is kept, the result is empty. */
  lemma {:induction false} FilterAllRejected<T>(xs: seq<T>, keep: T -> bool)
    requires forall i :: 0 <= i < |xs| ==> !keep(xs[i])
    ensures Filter(xs, keep) == []
  {
    if |xs| > 0 {
      FilterAllRejected(xs[1..], keep);
    }
  }

  /** Filtering out a rejected last element leaves a sequence whose
      elements are all kept unchanged. */
  lemma {:induction false} FilterAppendRejected<T>(xs: seq<T>, v: T, keep: T -> bool)
    requires forall i :: 0 <= i < |xs| ==> keep(xs[i])
    requires !keep(v)
    ensures Filter(xs + [v], keep) == xs
  {
    var ys := xs + [v];
    if |xs| == 0 {
      assert ys[1..] == [];
    } else {
      assert ys[1..] == xs[1..] + [v];
      FilterAppendRejected(xs[1..], v, keep);
      assert xs == [xs[0]] + xs[1..];
    }
  }

  /** The number of elements satisfying `p`. */
  function Count<T>(xs: seq<T>, p: T -> bool): (n: nat)
    ensures n <= |xs|
  {
    if |xs| == 0 then 0
    else (if p(xs[0]) then 1 else 0) + Count(xs[1..], p)
  }

  lemma {:induction false} CountAppend<T>(xs: seq<T>, ys: seq<T>, p: T -> bool)
    ensures Count(xs + ys, p) == Count(xs, p) + Count(ys, p)
  {
    if |xs| == 0 {
      assert xs + ys == ys;
    } else {
      assert (xs + ys)[1..] == xs[1..] + ys;
      CountAppend(xs[1..], ys, p);
    }
  }

  /** Elements with an index of at least `k` that fail `p` leave at most
      `k` elements satisfying it. */
  lemma {:induction false} CountAtMostPrefix<T>(xs: seq<T>, p: T -> bool, k: nat)
    requires k <= |xs|
    requires forall i :: k <= i < |xs| ==> !p(xs[i])
    ensures Count(xs, p) <= k
  {
    assert xs == xs[..k] + xs[k..];
    CountAppend(xs[..k], xs[k..], p);
    CountNone(xs[k..], p);
  }

  /** Elements with an index below `k` that fail `p` leave at most
      `|xs| - k` elements satisfying it. */
  lemma {:induction false} CountAtMostSuffix<T>(xs: seq<T>, p: T -> bool, k: nat)
    requires k <= |xs|
    requires forall i :: 0 <= i < k ==> !p(xs[i])
    ensures Count(xs, p) <= |xs| - k
  {
    assert xs == xs[..k] + xs[k..];
    CountAppend(xs[..k], xs[k..], p);
    CountNone(xs[..k], p);
  }

  /** When the first `k` elements all satisfy `p`, at least `k` do. */
  lemma {:induction false} CountAtLeastPrefix<T>(xs: seq<T>, p: T -> bool, k: nat)
    requires k <= |xs|
    requires forall i :: 0 <= i < k ==> p(xs[i])
    ensures Count(xs, p) >= k
  {
    if k > 0 {
      CountAtLeastPrefix(xs[1..], p, k - 1);
    }
  }

  /** A predicate that holds wherever another holds counts at least as
      many elements. */
  lemma {:induction false} CountMonotone<T>(xs: seq<T>, p: T -> bool, q: T -> bool)
    requires forall i :: 0 <= i < |xs| ==> p(xs[i]) ==> q(xs[i])
    ensures Count(xs, p) <= Count(xs, q)
  {
    if |xs| > 0 {
      CountMonotone(xs[1..], p, q);
    }
  }

  lemma {:induction false} CountNone<T>(xs: seq<T>, p: T -> bool)
    requires forall i :: 0 <= i < |xs| ==> !p(xs[i])
    ensures Count(xs, p) == 0
  {
    if |xs| > 0 {
      CountNone(xs[1..], p);
    }
  }

  predicate Sorted(s: seq<int>) {
    forall i, j :: 0 <= i < j < |s| ==> s[i] <= s[j]
  }

  predicate StrictlyIncreasing(s: seq<int>) {
    forall i, j :: 0 <= i < j < |s| ==> s[i] < s[j]
  }

  predicate NoDuplicates<T(==)>(s: seq<T>) {
    forall i, j :: 0 <= i < j < |s| ==> s[i] != s[j]
  }

  /** Insertion of one element into a sorted sequence. */
  function Insert(x: int, s: seq<int>): (r: seq<int>)
    requires Sorted(s)
    ensures Sorted(r)
    ensures multiset(r) == multiset(s) + multiset{x}
    ensures |r| == |s| + 1
  {
    if |s| == 0 then [x]
    else if x <= s[0] then
      assert forall k :: 0 <= k < |s| ==> x <= s[k] by {
        forall k | 0 <= k < |s| ensures x <= s[k] {
          assert k == 0 || s[0] <= s[k];
        }
      }
      SortedCons(x, s);
      [x] + s
    else
      var t := Insert(x, s[1..]);
      assert s == [s[0]] + s[1..];
      InsertHeadBound(x, s, t);
      SortedCons(s[0], t);
      [s[0]] + t
  }

  /** Everything inserted behind the head of a sorted sequence is at least
      the head. */
  lemma InsertHeadBound(x: int, s: seq<int>, t: seq<int>)
    requires Sorted(s) && |s| > 0 && s[0] < x
    requires multiset(t) == multiset(s[1..]) + multiset{x}
    ensures forall k :: 0 <= k < |t| ==> s[0] <= t[k]
  {
    forall k | 0 <= k < |t| ensures s[0] <= t[k] {
      assert t[k] in multiset(t);
      if t[k] != x {
        assert t[k] in multiset(s[1..]);
        var j :| 0 <= j < |s| - 1 && s[1..][j] == t[k];
        assert s[j + 1] == t[k];
      }
    }
  }

  lemma SortedCons(a: int, t: seq<int>)
    requires Sorted(t)
    requires forall k :: 0 <= k < |t| ==> a <= t[k]
    ensures Sorted([a] + t)
  {
  }

  /** Inserting a value that is absent keeps a sequence strictly increasing. */
  lemma {:induction false} InsertStrict(x: int, s: seq<int>)
    requires StrictlyIncreasing(s) && x !in s
    ensures StrictlyIncreasing(Insert(x, s))
  {
    if |s| > 0 && x > s[0] {
      var t := Insert(x, s[1..]);
      InsertStrict(x, s[1..]);
      forall k | 0 <= k < |t| ensures s[0] < t[k] {
        assert t[k] in multiset(t);
        assert t[k] == x || t[k] in s[1..];
      }
    }
  }

  /** The ascending numeric sort `[...xs].sort((x, y) => x - y)`. */
  function Sort(xs: seq<int>): (r: seq<int>)
    ensures Sorted(r)
    ensures multiset(r) == multiset(xs)
    ensures |r| == |xs|
  {
    if |xs| == 0 then []
    else
      assert xs == [xs[0]] + xs[1..];
      Insert(xs[0], Sort(xs[1..]))
  }

  /** Sorting values that are pairwise distinct gives a strictly increasing
      sequence. */
  lemma {:induction false} SortStrict(xs: seq<int>)
    requires NoDuplicates(xs)
    ensures StrictlyIncreasing(Sort(xs))
  {
    if |xs| > 0 {
      var t := Sort(xs[1..]);
      SortStrict(xs[1..]);
      assert xs[0] !in xs[1..] by {
        forall j | 0 <= j < |xs| - 1 ensures xs[1..][j] != xs[0] {
          assert xs[1..][j] == xs[j + 1];
        }
      }
      assert xs[0] !in multiset(t);
      InsertStrict(xs[0], t);
    }
  }

  /** Sorting keeps the number of elements satisfying any predicate. */
  lemma {:induction false} CountSort(xs: seq<int>, p: int -> bool)
    ensures Count(Sort(xs), p) == Count(xs, p)
  {
    if |xs| > 0 {
      CountSort(xs[1..], p);
      CountInsert(xs[0], Sort(xs[1..]), p);
    }
  }

  lemma {:induction false} CountInsert(x: int, s: seq<int>, p: int -> bool)
    requires Sorted(s)
    ensures Count(Insert(x, s), p) == Count(s, p) + (if p(x) then 1 else 0)
  {
    if |s| > 0 && x > s[0] {
      CountInsert(x, s[1..], p);
      assert Insert(x, s)[1..] == Insert(x, s[1..]);
    } else if |s| > 0 {
      assert Insert(x, s)[1..] == s;
    }
  }

  /** The first-seen de-duplication of a scan that appends each value the
      first time it appears. */
  function Distinct(xs: seq<int>): (r: seq<int>)
    ensures NoDuplicates(r)
    ensures forall x :: x in r <==> x in xs
    ensures |r| <= |xs|
  {
    if |xs| == 0 then []
    else
      var d := Distinct(xs[..|xs| - 1]);
      var x := xs[|xs| - 1];
      assert xs == xs[..|xs| - 1] + [x];
      if x in d then d else d + [x]
  }
}

=== FILE: sessions.dfy ===
/** The session log: the record each timer or manual entry produces, the
    operations that prepend, edit and delete records, and the per-day and
    overall minute sums every aggregate is built from. */
module Sessions {

  import opened Util
  import Days
  import Seqs

  const MsPerMinute: int := 60_000

  /** One block of tracked time. `start` and `end` are instants in
      milliseconds; `minutes` is the authoritative duration. */
  datatype Session = Session(
    id: string,
    start: int,
    end: int,
    minutes: int,
    pausedMinutes: Option<int>,
    project: string,
    note: Option<string>,
    manual: bool)

  /** The calendar day a session is counted on: the day it started. */
  function Day(s: Session): int {
    Days.DayOf(s.start)
  }

  /** The record invariants: at least one minute, no negative span, no
      negative paused time. */
  predicate WellFormed(s: Session) {
    && s.minutes >= 1
    && s.end >= s.start
    && (s.pausedMinutes.Some? ==> s.pausedMinutes.value >= 0)
  }

  predicate HasId(ss: seq<Session>, id: string) {
    exists i :: 0 <= i < |ss| && ss[i].id == id
  }

  predicate UniqueIds(ss: seq<Session>) {
    forall i, j :: 0 <= i < j < |ss| ==> ss[i].id != ss[j].id
  }

  /** The invariant of the whole log. */
  predicate ValidLog(ss: seq<Session>) {
    UniqueIds(ss) && forall i :: 0 <= i < |ss| ==> WellFormed(ss[i])
  }

  /** `sessions.reduce((acc, b) => acc + b.minutes, 0)`. */
  function TotalMinutes(ss: seq<Session>): int {
    if |ss| == 0 then 0 else ss[0].minutes + TotalMinutes(ss[1..])
  }

  /** Sum of the minutes of the sessions that started on day `d`. */
  function DayTotal(ss: seq<Session>, d: int): int {
    if |ss| == 0 then 0
    else (if Day(ss[0]) == d then ss[0].minutes else 0) + DayTotal(ss[1..], d)
  }

  /** The days on which at least one session started. */
  function DaySet(ss: seq<Session>): set<int> {
    set i | 0 <= i < |ss| :: Day(ss[i])
  }

  lemma {:induction false} DayTotalAppend(a: seq<Session>, b: seq<Session>, d: int)
    ensures DayTotal(a + b, d) == DayTotal(a, d) + DayTotal(b, d)
  {
    if |a| == 0 {
      assert a + b == b;
    } else {
      assert (a + b)[1..] == a[1..] + b;
      DayTotalAppend(a[1..], b, d);
    }
  }

  lemma {:induction false} TotalMinutesAppend(a: seq<Session>, b: seq<Session>)
    ensures TotalMinutes(a + b) == TotalMinutes(a) + TotalMinutes(b)
  {
    if |a| == 0 {
      assert a + b == b;
    } else {
      assert (a + b)[1..] == a[1..] + b;
      TotalMinutesAppend(a[1..], b);
    }
  }

  /** A day without sessions has a zero total. */
  lemma {:induction false} DayTotalOutsideDaySet(ss: seq<Session>, d: int)
    requires d !in DaySet(ss)
    ensures DayTotal(ss, d) == 0
  {
    if |ss| > 0 {
      assert DaySet(ss[1..]) <= DaySet(ss) by {
        forall x | x in DaySet(ss[1..]) ensures x in DaySet(ss) {
          var i :| 0 <= i < |ss| - 1 && Day(ss[1..][i]) == x;
          assert Day(ss[i + 1]) == x;
        }
      }
      assert Day(ss[0]) in DaySet(ss);
      DayTotalOutsideDaySet(ss[1..], d);
    }
  }

  /** In a log of well-formed records a day has a positive total exactly
      when some session started on it. */
  lemma {:induction false} DayTotalPositiveIff(ss: seq<Session>, d: int)
    requires forall i :: 0 <= i < |ss| ==> WellFormed(ss[i])
    ensures DayTotal(ss, d) > 0 <==> d in DaySet(ss)
    ensures DayTotal(ss, d) >= 0
  {
    if |ss| == 0 {
    } else {
      DayTotalPositiveIff(ss[1..], d);
      assert DaySet(ss) == {Day(ss[0])} + DaySet(ss[1..]) by {
        forall x | x in DaySet(ss) ensures x in {Day(ss[0])} + DaySet(ss[1..]) {
          var i :| 0 <= i < |ss| && Day(ss[i]) == x;
          if i > 0 {
            assert Day(ss[1..][i - 1]) == x;
          }
        }
        forall x | x in DaySet(ss[1..]) ensures x in DaySet(ss) {
          var i :| 0 <= i < |ss| - 1 && Day(ss[1..][i]) == x;
          assert Day(ss[i + 1]) == x;
        }
      }
    }
  }

  /** Appending one record adds its day to the day set. */
  lemma DaySetAppendOne(ss: seq<Session>, x: Session)
    ensures DaySet(ss + [x]) == DaySet(ss) + {Day(x)}
  {
    var r := ss + [x];
    forall y | y in DaySet(r) ensures y in DaySet(ss) + {Day(x)} {
      var i :| 0 <= i < |r| && Day(r[i]) == y;
      if i < |ss| {
        assert Day(ss[i]) == y;
      }
    }
    forall y | y in DaySet(ss) ensures y in DaySet(r) {
      var i :| 0 <= i < |ss| && Day(ss[i]) == y;
      assert Day(r[i]) == y;
    }
    assert Day(r[|ss|]) == Day(x);
  }

  /** The record the stopwatch save handler prepends: the span ends now and
      reaches back `mins` minutes; minutes and paused minutes are clamped to
      at least 1 and 0. */
  function StopwatchRecord(mins: int, pausedMins: int, now: int, id: string, project: string): Session {
    Session(id, now - mins * MsPerMinute, now, Max(1, mins), Some(Max(0, pausedMins)), project, Some(""), false)
  }

  /** The record a completed pomodoro prepends: minutes are taken as given,
      and an empty caption becomes "Pomodoro". */
  function PomodoroRecord(mins: int, caption: string, now: int, id: string, project: string): Session {
    Session(id, now - mins * MsPerMinute, now, mins, None, project,
            Some(if caption == "" then "Pomodoro" else caption), false)
  }

  /** The record of a manual entry, flagged as manual. */
  function ManualRecord(mins: int, now: int, id: string, project: string): Session {
    Session(id, now - mins * MsPerMinute, now, Max(1, mins), None, project, None, true)
  }

  /** Prepending one record: the totals grow by its minutes on its own day
      only, and the log stays valid when the id is fresh and the record is
      well formed. */
  function Prepend(ss: seq<Session>, rec: Session): (r: seq<Session>)
    ensures |r| == |ss| + 1 && r[0] == rec && r[1..] == ss
    ensures TotalMinutes(r) == TotalMinutes(ss) + rec.minutes
    ensures DayTotal(r, Day(rec)) == DayTotal(ss, Day(rec)) + rec.minutes
    ensures forall d :: d != Day(rec) ==> DayTotal(r, d) == DayTotal(ss, d)
    ensures DaySet(r) == DaySet(ss) + {Day(rec)}
    ensures ValidLog(ss) && !HasId(ss, rec.id) && WellFormed(rec) ==> ValidLog(r)
  {
    var r := [rec] + ss;
    assert r[1..] == ss;
    assert DaySet(r) == DaySet(ss) + {Day(rec)} by {
      forall x | x in DaySet(r) ensures x in DaySet(ss) + {Day(rec)} {
        var i :| 0 <= i < |r| && Day(r[i]) == x;
        if i > 0 {
          assert Day(ss[i - 1]) == x;
        }
      }
      forall x | x in DaySet(ss) ensures x in DaySet(r) {
        var i :| 0 <= i < |ss| && Day(ss[i]) == x;
        assert Day(r[i + 1]) == x;
      }
      assert Day(r[0]) == Day(rec);
    }
    r
  }

  /** `onSaveFromStopwatch`. */
  function SaveFromStopwatch(ss: seq<Session>, mins: int, pausedMins: int, now: int, id: string, project: string): (r: seq<Session>)
    ensures |r| == |ss| + 1 && r[1..] == ss
    ensures r[0].id == id && r[0].project == project && !r[0].manual
    ensures r[0].minutes >= 1 && (mins >= 1 ==> r[0].minutes == mins) && (mins < 1 ==> r[0].minutes == 1)
    ensures r[0].pausedMinutes.Some? && r[0].pausedMinutes.value >= 0
    ensures pausedMins >= 0 ==> r[0].pausedMinutes == Some(pausedMins)
    ensures pausedMins < 0 ==> r[0].pausedMinutes == Some(0)
    ensures r[0].end == now && r[0].end - r[0].start == mins * MsPerMinute
    ensures TotalMinutes(r) == TotalMinutes(ss) + r[0].minutes
    ensures ValidLog(ss) && !HasId(ss, id) && mins >= 0 ==> ValidLog(r)
  {
    Prepend(ss, StopwatchRecord(mins, pausedMins, now, id, project))
  }

  /** `onSaveFromPomodoro`: no clamping of the minutes. */
  function SaveFromPomodoro(ss: seq<Session>, mins: int, caption: string, now: int, id: string, project: string): (r: seq<Session>)
    ensures |r| == |ss| + 1 && r[1..] == ss
    ensures r[0].id == id && r[0].project == project && !r[0].manual
    ensures r[0].minutes == mins && r[0].pausedMinutes.None?
    ensures r[0].note.Some? && r[0].note.value != ""
    ensures caption != "" ==> r[0].note == Some(caption)
    ensures caption == "" ==> r[0].note == Some("Pomodoro")
    ensures r[0].end == now && r[0].end - r[0].start == mins * MsPerMinute
    ensures TotalMinutes(r) == TotalMinutes(ss) + mins
    ensures ValidLog(ss) && !HasId(ss, id) && mins >= 1 ==> ValidLog(r)
  {
    Prepend(ss, PomodoroRecord(mins, caption, now, id, project))
  }

  /** `addManual`. */
  function AddManual(ss: seq<Session>, mins: int, now: int, id: string, project: string): (r: seq<Session>)
    ensures |r| == |ss| + 1 && r[1..] == ss
    ensures r[0].id == id && r[0].project == project && r[0].manual
    ensures r[0].minutes >= 1 && (mins >= 1 ==> r[0].minutes == mins) && (mins < 1 ==> r[0].minutes == 1)
    ensures r[0].end == now && r[0].end - r[0].start == mins * MsPerMinute
    ensures TotalMinutes(r) == TotalMinutes(ss) + r[0].minutes
    ensures ValidLog(ss) && !HasId(ss, id) && mins >= 0 ==> ValidLog(r)
  {
    Prepend(ss, ManualRecord(mins, now, id, project))
  }

  /** `Partial<Session>`: the fields an edit overwrites. */
  datatype Patch = Patch(
    id: Option<string>,
    start: Option<int>,
    end: Option<int>,
    minutes: Option<int>,
    pausedMinutes: Option<Option<int>>,
    project: Option<string>,
    note: Option<Option<string>>,
    manual: Option<bool>)

  /** The edit the history list makes: a new note and nothing else. */
  function NotePatch(note: string): Patch {
    Patch(None, None, None, None, None, None, Some(Some(note)), None)
  }

  /** `{...s, ...patch}`. */
  function ApplyPatch(s: Session, p: Patch): Session {
    Session(
      p.id.GetOr(s.id), p.start.GetOr(s.start), p.end.GetOr(s.end),
      p.minutes.GetOr(s.minutes), p.pausedMinutes.GetOr(s.pausedMinutes),
      p.project.GetOr(s.project), p.note.GetOr(s.note), p.manual.GetOr(s.manual))
  }

  /** `updateSession`: every session with the id is patched, every other one
      is left as it was, and the order is kept. */
  function UpdateSession(ss: seq<Session>, id: string, p: Patch): (r: seq<Session>)
    ensures |r| == |ss|
    ensures forall i :: 0 <= i < |ss| && ss[i].id == id ==> r[i] == ApplyPatch(ss[i], p)
    ensures forall i :: 0 <= i < |ss| && ss[i].id != id ==> r[i] == ss[i]
  {
    if |ss| == 0 then []
    else [if ss[0].id == id then ApplyPatch(ss[0], p) else ss[0]] + UpdateSession(ss[1..], id, p)
  }

  /** Editing a note changes no day total, no overall total and no
      validity. */
  lemma {:induction false} NoteEditKeepsTotals(ss: seq<Session>, id: string, note: string, d: int)
    ensures DayTotal(UpdateSession(ss, id, NotePatch(note)), d) == DayTotal(ss, d)
    ensures TotalMinutes(UpdateSession(ss, id, NotePatch(note))) == TotalMinutes(ss)
    ensures ValidLog(ss) ==> ValidLog(UpdateSession(ss, id, NotePatch(note)))
  {
    var r := UpdateSession(ss, id, NotePatch(note));
    if |ss| > 0 {
      assert r[1..] == UpdateSession(ss[1..], id, NotePatch(note));
      NoteEditKeepsTotals(ss[1..], id, note, d);
    }
  }

  /** The sessions `deleteSession` keeps. */
  function OtherId(id: string): Session -> bool {
    (s: Session) => s.id != id
  }

  /** `deleteSession`: removes every session with the id and keeps the
      others in order. */
  function DeleteSession(ss: seq<Session>, id: string): (r: seq<Session>)
    ensures !HasId(r, id)
    ensures forall i :: 0 <= i < |ss| && ss[i].id != id ==> ss[i] in r
    ensures forall i :: 0 <= i < |r| ==> r[i] in ss
    ensures !HasId(ss, id) ==> r == ss
    ensures multiset(r) <= multiset(ss)
    ensures forall s :: multiset(r)[s] == (if s.id != id then multiset(ss)[s] else 0)
  {
    var keep := OtherId(id);
    Seqs.FilterSubMultiset(ss, keep);
    forall s ensures multiset(Seqs.Filter(ss, keep))[s] == (if s.id != id then multiset(ss)[s] else 0) {
      Seqs.FilterMultiplicity(ss, keep, s);
    }
    Seqs.Filter(ss, keep)
  }

  /** Deleting from a concatenation deletes from each part and keeps them
      in order; a single session stays exactly when its id differs. */
  lemma DeleteSessionKeepsOrder(a: seq<Session>, b: seq<Session>, id: string)
    ensures DeleteSession(a + b, id) == DeleteSession(a, id) + DeleteSession(b, id)
    ensures |a| == 1 ==> DeleteSession(a, id) == (if a[0].id != id then a else [])
  {
    Seqs.FilterAppend(a, b, OtherId(id));
  }

  /** Deleting the id of a record that was just saved with a fresh id
      restores the log. */
  lemma DeleteUndoesPrepend(ss: seq<Session>, rec: Session)
    requires !HasId(ss, rec.id)
    ensures DeleteSession(Prepend(ss, rec), rec.id) == ss
  {
    var r := Prepend(ss, rec);
    assert r == [rec] + ss;
    assert r[1..] == ss;
  }
}

=== FILE: stopwatch.dfy ===
/** The stopwatch: a state machine over idle, running and paused that
    counts whole seconds of work and of pause, records laps, and on
    stop-and-save hands rounded minutes to the session log. The clock is a
    parameter: every transition receives the current instant in
    milliseconds. */
module Stopwatch {

  import opened Util

  datatype Mode = Idle | Running | Paused

  datatype Lap = Lap(totalSec: int, splitSec: int)

  /** `anchor` is the instant the elapsed count runs from and `pauseStart`
      the instant the current pause began; both are JavaScript refs that
      hold `null` or a number. */
  datatype Stopwatch = Stopwatch(
    mode: Mode,
    elapsedSec: int,
    pausedSec: int,
    anchor: Option<int>,
    pauseStart: Option<int>,
    lastLapAt: int,
    laps: seq<Lap>)

  const Initial: Stopwatch := Stopwatch(Idle, 0, 0, None, None, 0, [])

  /** JavaScript truthiness of a ref holding `null` or a number: `null` and
      `0` are both false. */
  predicate Truthy(r: Option<int>) {
    r.Some? && r.value != 0
  }

  /** Whole seconds between two instants, rounded down. */
  function SecondsBetween(from: int, to: int): (s: int)
    ensures 1000 * s <= to - from < 1000 * (s + 1)
  {
    (to - from) / 1000
  }

  /** `start`, also the last step of `resume`: the anchor is placed so that
      the elapsed count continues from where it stands. */
  function Begin(sw: Stopwatch, now: int): (r: Stopwatch)
    ensures r.mode == Running
    ensures r.anchor == Some(now - 1000 * sw.elapsedSec)
    ensures r.elapsedSec == sw.elapsedSec && r.pausedSec == sw.pausedSec && r.laps == sw.laps
  {
    sw.(mode := Running, anchor := Some(now - 1000 * sw.elapsedSec))
  }

  /** The Start button, shown only when idle. */
  function Start(sw: Stopwatch, now: int): (r: Stopwatch)
    ensures sw.mode == Idle ==> r.mode == Running && r.anchor == Some(now - 1000 * sw.elapsedSec)
    ensures sw.mode != Idle ==> r == sw
    ensures r.elapsedSec == sw.elapsedSec && r.pausedSec == sw.pausedSec
    ensures r.pauseStart == sw.pauseStart && r.lastLapAt == sw.lastLapAt && r.laps == sw.laps
  {
    if sw.mode == Idle then Begin(sw, now) else sw
  }

  /** The 250 ms interval while running: elapsed becomes the whole seconds
      since the anchor, unless the anchor is unset or zero. No interval runs
      in the other modes. */
  function Tick(sw: Stopwatch, now: int): (r: Stopwatch)
    ensures sw.mode == Running && Truthy(sw.anchor) ==>
      1000 * r.elapsedSec <= now - sw.anchor.value < 1000 * (r.elapsedSec + 1)
    ensures !(sw.mode == Running && Truthy(sw.anchor)) ==> r == sw
    ensures r.mode == sw.mode && r.pausedSec == sw.pausedSec && r.anchor == sw.anchor && r.laps == sw.laps
    ensures r.pauseStart == sw.pauseStart && r.lastLapAt == sw.lastLapAt
  {
    if sw.mode == Running && Truthy(sw.anchor) then
      sw.(elapsedSec := SecondsBetween(sw.anchor.value, now))
    else sw
  }

  /** The Pause button, shown only while running. */
  function Pause(sw: Stopwatch, now: int): (r: Stopwatch)
    ensures sw.mode == Running ==> r.mode == Paused && r.pauseStart == Some(now)
    ensures sw.mode != Running ==> r == sw
    ensures r.elapsedSec == sw.elapsedSec && r.pausedSec == sw.pausedSec && r.laps == sw.laps
    ensures r.anchor == sw.anchor && r.lastLapAt == sw.lastLapAt
  {
    if sw.mode == Running then sw.(mode := Paused, pauseStart := Some(now)) else sw
  }

  /** The Resume button, shown only while paused: the finished pause is
      added (never negatively) to the paused seconds and the count restarts. */
  function Resume(sw: Stopwatch, now: int): (r: Stopwatch)
    ensures sw.mode == Paused ==> r.mode == Running && r.anchor == Some(now - 1000 * sw.elapsedSec)
    ensures sw.mode == Paused && Truthy(sw.pauseStart) ==>
      r.pausedSec == sw.pausedSec + Max(0, SecondsBetween(sw.pauseStart.value, now)) && r.pauseStart == None
    ensures sw.mode == Paused && !Truthy(sw.pauseStart) ==> r.pausedSec == sw.pausedSec
    ensures sw.mode != Paused ==> r == sw
    ensures r.pausedSec >= sw.pausedSec && r.elapsedSec == sw.elapsedSec && r.laps == sw.laps
    ensures r.lastLapAt == sw.lastLapAt
  {
    if sw.mode != Paused then sw
    else
      var settled :=
        if Truthy(sw.pauseStart) then
          sw.(pausedSec := sw.pausedSec + Max(0, SecondsBetween(sw.pauseStart.value, now)), pauseStart := None)
        else sw;
      Begin(settled, now)
  }

  /** The Lap button, shown while running or paused: records the elapsed
      total and the split since the previous lap (the whole total for the
      first lap), never negative, newest first. */
  function TakeLap(sw: Stopwatch): (r: Stopwatch)
    ensures sw.mode == Idle ==> r == sw
    ensures sw.mode != Idle ==> |r.laps| == |sw.laps| + 1 && r.laps[0].totalSec == sw.elapsedSec && r.laps[1..] == sw.laps
    ensures sw.mode != Idle ==> r.lastLapAt == sw.elapsedSec
    ensures sw.mode != Idle && sw.lastLapAt == 0 ==> r.laps[0].splitSec == Max(0, sw.elapsedSec)
    ensures sw.mode != Idle && sw.lastLapAt != 0 ==> r.laps[0].splitSec == Max(0, sw.elapsedSec - sw.lastLapAt)
    ensures r.mode == sw.mode && r.elapsedSec == sw.elapsedSec && r.pausedSec == sw.pausedSec
    ensures r.anchor == sw.anchor && r.pauseStart == sw.pauseStart
  {
    if sw.mode == Idle then sw
    else
      var total := sw.elapsedSec;
      var split := if sw.lastLapAt == 0 then total else total - sw.lastLapAt;
      sw.(lastLapAt := total, laps := [Lap(total, Max(0, split))] + sw.laps)
  }

  /** What stop-and-save hands to the session log. */
  datatype Saved = Saved(minutes: int, pausedMinutes: int)

  /** Seconds as the minutes `onSave` receives: rounded, at least `floor`. */
  function ToMinutes(sec: int, floor: int): (m: int)
    ensures m >= floor
    ensures m == floor || 60 * (2 * m - 1) <= 2 * sec < 60 * (2 * m + 1)
    ensures 2 * sec >= 60 * (2 * floor + 1) ==> 60 * (2 * m - 1) <= 2 * sec < 60 * (2 * m + 1)
  {
    Max(floor, RoundDiv(sec, 60))
  }

  /** Every field back to the idle start, except a pause reference the
      handler did not clear. */
  function Reset(sw: Stopwatch, pauseStart: Option<int>): (r: Stopwatch)
    ensures r == Initial.(pauseStart := pauseStart)
  {
    Stopwatch(Idle, 0, 0, None, pauseStart, 0, [])
  }

  /** `stopSave` as written, shown while running or paused. A pause still in
      progress is closed, but the minutes are computed from the paused
      seconds as they stood before, so that pause is not counted. */
  function StopSave(sw: Stopwatch, now: int): (res: (Stopwatch, Option<Saved>))
    ensures sw.mode == Idle ==> res == (sw, None)
    ensures sw.mode != Idle ==> res.1 == Some(Saved(ToMinutes(sw.elapsedSec, 1), ToMinutes(sw.pausedSec, 0)))
    ensures sw.mode != Idle ==> res.0.mode == Idle && res.0.elapsedSec == 0 && res.0.pausedSec == 0 && res.0.laps == []
    ensures sw.mode != Idle ==> res.0.lastLapAt == 0 && res.0.anchor == None
  {
    if sw.mode == Idle then (sw, None)
    else
      var ps := if sw.mode == Paused && Truthy(sw.pauseStart) then None else sw.pauseStart;
      (Reset(sw, ps), Some(Saved(ToMinutes(sw.elapsedSec, 1), ToMinutes(sw.pausedSec, 0))))
  }

  /** The paused seconds including a pause still in progress at `now`. */
  function PausedIncludingCurrent(sw: Stopwatch, now: int): (s: int)
    ensures sw.mode == Paused && Truthy(sw.pauseStart) ==>
      s == sw.pausedSec + Max(0, SecondsBetween(sw.pauseStart.value, now))
    ensures !(sw.mode == Paused && Truthy(sw.pauseStart)) ==> s == sw.pausedSec
    ensures s >= sw.pausedSec
  {
    if sw.mode == Paused && Truthy(sw.pauseStart) then
      sw.pausedSec + Max(0, SecondsBetween(sw.pauseStart.value, now))
    else sw.pausedSec
  }

  /** `stopSave` as evidently intended: the pause being closed counts
      towards the saved pause minutes, exactly as resuming first would. */
  function StopSaveIntended(sw: Stopwatch, now: int): (res: (Stopwatch, Option<Saved>))
    ensures sw.mode == Idle ==> res == (sw, None)
    ensures sw.mode == Paused ==>
      res.1 == Some(Saved(ToMinutes(sw.elapsedSec, 1), ToMinutes(Resume(sw, now).pausedSec, 0)))
    ensures sw.mode == Running ==> res.1 == StopSave(sw, now).1
    ensures res.0 == StopSave(sw, now).0
  {
    if sw.mode == Idle then (sw, None)
    else
      var ps := if sw.mode == Paused && Truthy(sw.pauseStart) then None else sw.pauseStart;
      (Reset(sw, ps), Some(Saved(ToMinutes(sw.elapsedSec, 1), ToMinutes(PausedIncludingCurrent(sw, now), 0))))
  }

  // ---------------------------------------------------------------------
  // Laps

  function SumSplits(laps: seq<Lap>): int {
    if |laps| == 0 then 0 else laps[0].splitSec + SumSplits(laps[1..])
  }

  /** The lap bookkeeping: the last lap mark is the newest lap's total (0
      with no laps), and the splits add up to it. */
  predicate LapsConsistent(sw: Stopwatch) {
    && sw.lastLapAt == (if sw.laps == [] then 0 else sw.laps[0].totalSec)
    && SumSplits(sw.laps) == sw.lastLapAt
  }

  /** While elapsed time has not gone below the last lap mark, taking a lap
      keeps the splits summing to the newest total. */
  lemma LapKeepsSplitsSum(sw: Stopwatch)
    requires LapsConsistent(sw)
    requires sw.mode != Idle
    requires 0 <= sw.lastLapAt <= sw.elapsedSec
    ensures LapsConsistent(TakeLap(sw))
    ensures SumSplits(TakeLap(sw).laps) == sw.elapsedSec
  {
    var r := TakeLap(sw);
    assert r.laps[1..] == sw.laps;
  }

  /** The other transitions leave the lap bookkeeping alone or clear it. */
  lemma TransitionsKeepLapsConsistent(sw: Stopwatch, now: int)
    requires LapsConsistent(sw)
    ensures LapsConsistent(Start(sw, now)) && LapsConsistent(Tick(sw, now))
    ensures LapsConsistent(Pause(sw, now)) && LapsConsistent(Resume(sw, now))
    ensures LapsConsistent(StopSave(sw, now).0)
  {
  }

  /** Time moves forward between the anchor and any later tick, so elapsed
      never decreases while running. */
  lemma TickNeverDecreases(sw: Stopwatch, now: int)
    requires sw.mode == Running && Truthy(sw.anchor)
    requires sw.anchor.value + 1000 * sw.elapsedSec <= now
    ensures Tick(sw, now).elapsedSec >= sw.elapsedSec
  {
    var e := Tick(sw, now).elapsedSec;
    if e < sw.elapsedSec {
      MulLe(1000, e + 1, sw.elapsedSec);
    }
  }

  /** Resuming at `t2` and ticking at `t3` adds exactly the whole seconds
      run since the resume: the pause is not counted as work. */
  lemma ResumeThenTickSkipsPause(sw: Stopwatch, t2: int, t3: int)
    requires sw.mode == Paused
    requires t2 - 1000 * sw.elapsedSec != 0
    ensures Tick(Resume(sw, t2), t3).elapsedSec == sw.elapsedSec + SecondsBetween(t2, t3)
  {
    var r := Resume(sw, t2);
    var e := sw.elapsedSec;
    var k := SecondsBetween(t2, t3);
    EuclidUnique(t3 - (t2 - 1000 * e), 1000, e + k, (t3 - t2) - 1000 * k);
  }

  /** Ninety seconds of work, a thirty-second pause, then stop-and-save
      gives two minutes of work (1.5 rounds up) and one of pause (0.5 rounds
      up). */
  lemma WorkPauseResumeSave(t0: int)
    requires t0 > 0
    ensures
      var s1 := Tick(Start(Initial, t0), t0 + 90_000);
      var s2 := Resume(Pause(s1, t0 + 90_000), t0 + 120_000);
      StopSave(s2, t0 + 120_000).1 == Some(Saved(2, 1))
  {
    var s0 := Start(Initial, t0);
    var s1 := Tick(s0, t0 + 90_000);
    EuclidUnique(90_000, 1000, 90, 0);
    assert s1.elapsedSec == 90;
    var p := Pause(s1, t0 + 90_000);
    var s2 := Resume(p, t0 + 120_000);
    EuclidUnique(30_000, 1000, 30, 0);
    assert s2.pausedSec == 30;
    RoundDivUnique(90, 60, 2);
    RoundDivUnique(30, 60, 1);
  }

  /** The pause closed by stop-and-save is lost: one minute of work and two
      minutes of pause save as one and zero. */
  lemma StopSaveDropsCurrentPause(t0: int)
    requires t0 > 0
    ensures
      var s := Pause(Tick(Start(Initial, t0), t0 + 60_000), t0 + 60_000);
      StopSave(s, t0 + 180_000).1 == Some(Saved(1, 0))
  {
    var s1 := Tick(Start(Initial, t0), t0 + 60_000);
    EuclidUnique(60_000, 1000, 60, 0);
    assert s1.elapsedSec == 60;
    RoundDivUnique(60, 60, 1);
    RoundDivUnique(0, 60, 0);
  }

  /** The corrected handler saves the same session with two minutes of
      pause. */
  lemma StopSaveIntendedCountsCurrentPause(t0: int)
    requires t0 > 0
    ensures
      var s := Pause(Tick(Start(Initial, t0), t0 + 60_000), t0 + 60_000);
      StopSaveIntended(s, t0 + 180_000).1 == Some(Saved(1, 2))
  {
    var s1 := Tick(Start(Initial, t0), t0 + 60_000);
    EuclidUnique(60_000, 1000, 60, 0);
    EuclidUnique(120_000, 1000, 120, 0);
    RoundDivUnique(60, 60, 1);
    RoundDivUnique(120, 60, 2);
  }

  /** In general the corrected handler saves what resuming and then saving
      would save. */
  lemma StopSaveIntendedMatchesResumeFirst(sw: Stopwatch, now: int)
    requires sw.mode == Paused
    ensures StopSaveIntended(sw, now).1 == StopSave(Resume(sw, now), now).1
  {
  }
}

=== FILE: util.dfy ===
/** Small helpers shared by every component: an Option type, integer
    min/max, JavaScript's rounding and remainder, `clamp`, `trim` and the
    hours/minutes label produced by `fmtHm`. */
module Util {

  datatype Option<+T> = None | Some(value: T) {
    /** The wrapped value, or `default` when there is none. */
    function GetOr(default: T): T {
      match this
      case Some(v) => v
      case None => default
    }
  }

  function Max(a: int, b: int): (r: int)
    ensures r >= a && r >= b
    ensures r == a || r == b
  {
    if a >= b then a else b
  }

  function Min(a: int, b: int): (r: int)
    ensures r <= a && r <= b
    ensures r == a || r == b
  {
    if a <= b then a else b
  }

  /** JavaScript's `Math.round(p / q)` for a positive divisor: the nearest
      integer to p/q, halves rounding towards +infinity. */
  function RoundDiv(p: int, q: int): (r: int)
    requires q > 0
    ensures q * (2 * r - 1) <= 2 * p < q * (2 * r + 1)
  {
    var r := (2 * p + q) / (2 * q);
    assert 2 * q * r <= 2 * p + q < 2 * q * r + 2 * q;
    r
  }

  /** Multiplying by a positive number keeps the order. */
  lemma MulLe(q: int, a: int, b: int)
    requires q > 0 && a <= b
    ensures q * a <= q * b
  {
    assert q * b - q * a == q * (b - a);
  }

  /** The rounding above is the only integer with that property. */
  lemma RoundDivUnique(p: int, q: int, r: int)
    requires q > 0
    requires q * (2 * r - 1) <= 2 * p < q * (2 * r + 1)
    ensures r == RoundDiv(p, q)
  {
    var r0 := RoundDiv(p, q);
    if r < r0 {
      MulLe(q, 2 * r + 1, 2 * r0 - 1);
    } else if r > r0 {
      MulLe(q, 2 * r0 + 1, 2 * r - 1);
    }
  }

  /** Rounding a quotient whose exact value lies between two integers stays
      between them. */
  lemma RoundDivBetween(p: int, q: int, lo: int, hi: int)
    requires q > 0
    requires q * lo <= p <= q * hi
    ensures lo <= RoundDiv(p, q) <= hi
  {
    var r := RoundDiv(p, q);
    if r < lo {
      MulLe(q, 2 * r + 1, 2 * lo - 1);
    }
    if r > hi {
      MulLe(q, 2 * hi + 1, 2 * r - 1);
    }
  }

  /** Rounding keeps the order of the dividends. */
  lemma RoundDivMonotone(p1: int, p2: int, q: int)
    requires q > 0 && p1 <= p2
    ensures RoundDiv(p1, q) <= RoundDiv(p2, q)
  {
    var r1, r2 := RoundDiv(p1, q), RoundDiv(p2, q);
    if r1 > r2 {
      MulLe(q, 2 * r2 + 1, 2 * r1 - 1);
    }
  }

  /** JavaScript's `a % b`: the remainder truncated towards zero, so it takes
      the sign of the dividend. */
  function JsRem(a: int, b: int): (r: int)
    requires b > 0
    ensures a >= 0 ==> r == a % b
    ensures a < 0 ==> -b < r <= 0
    ensures a < 0 ==> r == (if a % b == 0 then 0 else a % b - b)
  {
    if a >= 0 then a % b
    else
      var m := (-a) % b;
      assert a == b * (-((-a) / b)) - m;
      assert m > 0 ==> a == b * (-((-a) / b) - 1) + (b - m);
      EuclidUnique(a, b, if m == 0 then -((-a) / b) else -((-a) / b) - 1, if m == 0 then 0 else b - m);
      -m
  }

  /** The Euclidean quotient and remainder are the only ones. */
  lemma EuclidUnique(a: int, b: int, k: int, m: int)
    requires b > 0 && 0 <= m < b && a == b * k + m
    ensures a / b == k && a % b == m
  {
    var k0, m0 := a / b, a % b;
    if k0 < k {
      MulLe(b, k0 + 1, k);
    } else if k0 > k {
      MulLe(b, k + 1, k0);
    }
  }

  /** `clamp(n, min, max) = Math.max(min, Math.min(max, n))` over exact
      rationals. */
  function Clamp(n: real, lo: real, hi: real): (r: real)
    ensures lo <= hi ==> lo <= r <= hi
    ensures lo <= n <= hi ==> r == n
    ensures n < lo ==> r == lo
    ensures lo <= hi < n ==> r == hi
  {
    var m := if hi <= n then hi else n;
    if lo >= m then lo else m
  }

  /** The three shapes `fmtHm` writes: "Mm", "Hh" or "Hh Mm". */
  datatype HmLabel = MinutesOnly(m: int) | HoursOnly(h: int) | HoursMinutes(h: int, m: int)

  /** The number of minutes a label reads as. */
  function LabelMinutes(l: HmLabel): int {
    match l
    case MinutesOnly(m) => m
    case HoursOnly(h) => 60 * h
    case HoursMinutes(h, m) => 60 * h + m
  }

  /** `fmtHm`: whole hours by floor division, the rest by JavaScript's
      remainder; hours are omitted when not positive and minutes when zero. */
  function FmtHm(mins: int): (r: HmLabel)
    ensures mins >= 0 ==> LabelMinutes(r) == mins
    ensures 0 <= mins < 60 ==> r == MinutesOnly(mins)
    ensures mins >= 60 ==> !r.MinutesOnly? && r.h >= 1
    ensures r.HoursMinutes? ==> 0 < r.m < 60
  {
    var h := mins / 60;
    var m := JsRem(mins, 60);
    if h <= 0 then MinutesOnly(m)
    else if m == 0 then HoursOnly(h)
    else HoursMinutes(h, m)
  }

  /** The characters `String.prototype.trim` removes: the ECMAScript
      WhiteSpace and LineTerminator sets. */
  predicate IsSpace(c: char) {
    || c in SpaceChars
    || ('\U{2000}' <= c <= '\U{200A}')
  }

  const SpaceChars: set<char> := {
    ' ', '\t', '\n', '\r', '\U{000B}', '\U{000C}', '\U{00A0}', '\U{1680}',
    '\U{2028}', '\U{2029}', '\U{202F}', '\U{205F}', '\U{3000}', '\U{FEFF}'
  }

  /** The end of the run of white space that starts at `i`. */
  function SkipSpaces(s: string, i: int): (n: int)
    requires 0 <= i <= |s|
    ensures i <= n <= |s|
    ensures forall k :: i <= k < n ==> IsSpace(s[k])
    ensures n < |s| ==> !IsSpace(s[n])
    decreases |s| - i
  {
    if i < |s| && IsSpace(s[i]) then SkipSpaces(s, i + 1) else i
  }

  /** The start of the run of white space that ends at `j`, not going
      below `lo`. */
  function SkipSpacesBack(s: string, lo: int, j: int): (m: int)
    requires 0 <= lo <= j <= |s|
    ensures lo <= m <= j
    ensures forall k :: m <= k < j ==> IsSpace(s[k])
    ensures m > lo ==> !IsSpace(s[m - 1])
    decreases j
  {
    if j > lo && IsSpace(s[j - 1]) then SkipSpacesBack(s, lo, j - 1) else j
  }

  /** `r` is `s` with a run of white space removed at each end. */
  ghost predicate TrimmedAt(s: string, r: string, i: int) {
    && 0 <= i <= |s| - |r|
    && r == s[i..i + |r|]
    && (forall k :: 0 <= k < i ==> IsSpace(s[k]))
    && (forall k :: i + |r| <= k < |s| ==> IsSpace(s[k]))
  }

  /** `name.trim()`: the infix left after removing white space from both
      ends, which neither starts nor ends with white space. */
  function Trim(s: string): (r: string)
    ensures exists i :: TrimmedAt(s, r, i)
    ensures |r| > 0 ==> !IsSpace(r[0]) && !IsSpace(r[|r| - 1])
    ensures r == [] <==> forall k :: 0 <= k < |s| ==> IsSpace(s[k])
  {
    var i := SkipSpaces(s, 0);
    var j := SkipSpacesBack(s, i, |s|);
    var r := s[i..j];
    assert TrimmedAt(s, r, i);
    assert |r| > 0 ==> r[0] == s[i] && r[|r| - 1] == s[j - 1];
    r
  }

  /** Trimming twice trims nothing more. */
  lemma TrimIdempotent(s: string)
    ensures Trim(Trim(s)) == Trim(s)
  {
    var t := Trim(s);
    if |t| > 0 {
      assert SkipSpaces(t, 0) == 0;
      assert SkipSpacesBack(t, 0, |t|) == |t|;
      assert t[0..|t|] == t;
    }
  }
}
